=== FILE: README.md ===
# Parcel transport system: a Dafny model of its booking core

This project models the logic at the core of a Next.js parcel-transport web
application. It covers the following parts:

- the `/api/bookings` endpoint: pricing, estimated delivery date,
  tracking-number generation, address parsing, and the GET and POST handlers;
- the Mongoose `Booking` schema, as a validating constructor and a
  tracking-number-keyed store;
- bearer-token extraction and the request middleware;
- the contact endpoint's validation and mail composition;
- the support chatbot's reply rule and message history;
- the knowledge-base search;
- the admin dashboard's user and shipment list operations;
- the customer dashboard's counters, badges and labels;
- the shipping calculator's quote.

Each source file becomes one module:

| module | models |
|---|---|
| `BookingsRoute` | the bookings API route |
| `BookingSchema` | the Booking model |
| `Auth` | the auth helpers |
| `Middleware` | the middleware |
| `Contact` | the contact route |
| `ChatBot` | the chatbot component |
| `Knowledge` | the knowledge page |
| `AdminDashboard` | the admin dashboard page |
| `CustomerDashboard` | the customer dashboard page |
| `Calculator` | the calculator page |

Three shared modules support them:

- `Text` gives the JavaScript string operations the source relies on, with
  their JavaScript edge cases:
  - `split` keeps empty pieces, and splitting `""` gives `[""]`;
  - `trim` strips the full ECMAScript whitespace set;
  - `includes("")` holds everywhere;
  - an optional string is truthy only when present and nonempty.
- `Seqs` gives the subsequence relation that `filter` satisfies.
- `Wrappers` gives `Option` and `Result`.

Collaborators the code calls but does not define become parameters:

- JWT verification is a function from the token to the claims, or `None` when
  verification throws.
- `parseFloat` is a function from string to an optional `real`. `None` stands
  for NaN, which the schema's Number cast refuses.
- The clock is an integer day number (`today`) and timestamps (`now`, `savedAt` and the chatbot's readings).
- `Math.random` is a sequence of ten draws, each already scaled to an index
  into the 36-symbol alphabet.
- The database is a map from tracking number to booking. The unique index
  becomes a duplicate-key failure.

## Model

| member | source | states |
|---|---|---|
| BookingsRoute.Price | src/app/api/bookings/route.ts:41-62 | The price is a base charge plus twice the weight. The base is 25 for express, 20 for fragile, 15 for large and 10 for any other type. |
| BookingsRoute.PriceMonotone | src/app/api/bookings/route.ts:41-62 | For one package type, a heavier parcel costs strictly more. A non-negative weight never costs less than the base charge. |
| BookingsRoute.BasePriceRange | src/app/api/bookings/route.ts:41-62 | Standard has the lowest base charge and express the highest. |
| BookingsRoute.EstimatedDeliveryDate | src/app/api/bookings/route.ts:17-38 | Delivery is due 1 day after booking for express, 4 for fragile, 5 for large and 3 for any other type, so always 1 to 5 days after. |
| BookingsRoute.DeliveryOrder | src/app/api/bookings/route.ts:17-38 | Express is never slower than any type and large is never faster. Standard takes 3 days and fragile 4. |
| BookingsRoute.ExpressExample | src/app/api/bookings/route.ts:17-62 | An express parcel of weight 2 costs 29 and is due the next day. |
| BookingsRoute.AlphabetSymbols | src/app/api/bookings/route.ts:8 | The alphabet has 36 symbols: A to Z, then 0 to 9. |
| BookingsRoute.Encode | src/app/api/bookings/route.ts:10-12 | Each draw picks one alphabet symbol. The result is as long as the draws. |
| BookingsRoute.SymbolIndex | src/app/api/bookings/route.ts:8-11 | Gives the position of an alphabet symbol, and -1 for anything else. |
| BookingsRoute.DecodeEncode | src/app/api/bookings/route.ts:7-14 | The draws can be recovered from the tracking number, so distinct draws give distinct numbers. |
| BookingsRoute.EncodeDecode | src/app/api/bookings/route.ts:7-14 | Every string over the alphabet is the tracking number of exactly one draw sequence. |
| BookingsRoute.GenerateTrackingNumber | src/app/api/bookings/route.ts:7-14 | The generated number has 10 characters, all from A to Z or 0 to 9, and it encodes exactly the ten draws. |
| BookingsRoute.ParseAddress | src/app/api/bookings/route.ts:132-141 | The fields are the first five comma-separated pieces in order: street, city, state, zip code and country. A missing piece gives an empty field, and a missing or empty country gives USA. Every field is trimmed and free of commas. |
| BookingsRoute.ParseFormatAddress | src/app/api/bookings/route.ts:132-141 | Parsing an address written as five comma-and-space-separated plain fields gives that address back. |
| BookingsRoute.JoinCommaSpace | src/app/api/bookings/route.ts:133 | Joining with ", " equals joining with "," after putting a space before every field but the first. |
| BookingsRoute.TrimSpaced | src/app/api/bookings/route.ts:133 | Trimming a space followed by a trimmed field gives the field. |
| BookingsRoute.ParseAddressDropsExtra | src/app/api/bookings/route.ts:133-140 | Comma-separated pieces after the fifth are ignored. |
| BookingsRoute.ParseAddressShort | src/app/api/bookings/route.ts:133-140 | Text without commas becomes the trimmed street. The other fields are empty and the country is USA. A blank address gives an all-empty address in the USA. |
| BookingsRoute.BearerSecondPiece | src/app/api/bookings/route.ts:104-111 | After "Bearer ", the header's second space-separated piece is the first piece of the rest. It is the whole rest or followed by a space. |
| BookingsRoute.BearerToken | src/app/api/bookings/route.ts:70-78 | A token is read exactly when the header is present and starts with "Bearer ". It is the second space-separated word, which contains no space. |
| BookingsRoute.Get | src/app/api/bookings/route.ts:65-95 | 401 "Authentication required" exactly when there is no bearer header. 500 exactly when verification fails. Otherwise 200 with the result of the query on the `userId` path with the verified id; what that query returns is under "## Left out". |
| BookingsRoute.EffectiveType | src/app/api/bookings/route.ts:128-129 | The package type in effect is the one sent when it is truthy. Otherwise it is a nonempty default. |
| BookingsRoute.MissingTypeIsStandard | src/app/api/bookings/route.ts:128-148 | A missing or empty package type is priced and scheduled as standard. |
| BookingsRoute.DraftOf | src/app/api/bookings/route.ts:127-155 | Builds the new booking from the body. See the details below the table. |
| BookingsRoute.CreateDraft | src/app/api/bookings/route.ts:143-158 | The document built from a request passes validation exactly when its package type is in the enum, the weight is a number and the user id is an ObjectId. The saved booking then carries the parsed request: tracking number, addresses, type, weight, date and customer. |
| BookingsRoute.Post | src/app/api/bookings/route.ts:98-167 | The outcomes of POST. See the details below the table. |
| BookingsRoute.UnknownTypeRefused | src/app/api/bookings/route.ts:144-158 | A package type outside the schema's enum never produces a 201. |
| BookingSchema.ParseStatus | src/lib/models/Booking.ts:9-13 | A string is accepted as a status exactly when it is one of the four enum names, and the name round-trips. |
| BookingSchema.ParsePackageType | src/lib/models/Booking.ts:28-32 | A string is accepted as a package type exactly when it is one of the four enum names, and the name round-trips. |
| BookingSchema.Create | src/lib/models/Booking.ts:3-56 | Validation succeeds exactly when all of these hold: the tracking number is present; the status is absent or in the enum; the package type is in the enum; the weight is a number; the estimated date is present; the customer is absent or 24 hexadecimal digits. A valid document copies its fields, defaults the status to pending, and stamps both timestamps with the clock. |
| BookingSchema.CreateInputOf | src/lib/models/Booking.ts:3-56 | Any booking with a nonempty tracking number and a castable customer passes validation again. It comes back unchanged apart from its timestamps. |
| BookingSchema.StatusDefaultsToPending | src/lib/models/Booking.ts:9-13 | A document created without a status is pending. |
| BookingSchema.Touch | src/lib/models/Booking.ts:59-62 | The pre-save hook sets updatedAt to the clock and changes nothing else. |
| BookingSchema.Insert | src/lib/models/Booking.ts:4-62 | Saving fails with a duplicate-key error exactly when the tracking number is already stored. Otherwise it adds exactly that key, mapped to the touched booking, and leaves every other entry as it was. |
| BookingSchema.InsertKeepsIndexed | src/lib/models/Booking.ts:4-8 | Every stored booking stays keyed by its own tracking number. |
| BookingSchema.TrackingNumberStaysUnique | src/lib/models/Booking.ts:7 | A second booking with a tracking number already saved is refused. |
| Auth.GetTokenFromHeaders | src/lib/auth.ts:18-26 | A missing or empty header yields no token. A token is nonempty and contains no space. It follows "Bearer " as the whole header or as its second word. |
| Auth.TokenRoundTrip | src/lib/auth.ts:18-26 | "Bearer " plus a nonempty space-free token yields that token, with or without further words. |
| Auth.WrongSchemeRejected | src/lib/auth.ts:22-23 | A header whose first word is not exactly "Bearer" yields nothing. |
| Auth.EmptyTokenRejected | src/lib/auth.ts:22-23 | "Bearer", "Bearer " and "Bearer" followed by two spaces all yield nothing, since the second word is empty. |
| Middleware.PublicIffRooted | src/middleware.ts:9-25 | A path is public exactly when it starts with "/", because "/" is one of the listed prefixes. |
| Middleware.HeaderToken | src/middleware.ts:6 | A token is read exactly when the header splits into at least two space-separated words, and it is the second word, whatever the first is. It contains no space. |
| Middleware.HeaderTokenAnyScheme | src/middleware.ts:6 | Any first word followed by a space and a space-free word yields that word, bearer or not. |
| Middleware.HeaderTokenAgreesWithAuth | src/middleware.ts:6 | Whenever the auth helper finds a token, the middleware reads the same one. |
| Middleware.Decide | src/middleware.ts:5-59 | A request passes exactly when its path is public, is a dashboard path, or carries a token that verifies. Public paths pass with their headers unchanged. Every rejection is a 401 on a non-public path, with one of two messages: "Authentication required" exactly when no token is read, "Invalid token" exactly when verification fails. A verified request passes with the payload in the user header. |
| Middleware.RootedPathsPass | src/middleware.ts:23-29 | Every path starting with "/" passes unchanged, whatever the verifier does. |
| Middleware.DashboardAlreadyPublic | src/middleware.ts:32-34 | The dashboard exemption is never reached: every dashboard path is already public. |
| Middleware.VerifiedKeepsHeaders | src/middleware.ts:45-51 | A request that passes keeps every header other than user. |
| Contact.IsValidEmail | src/app/api/contact/route.ts:17 | An accepted email has at least five characters, no whitespace, and a single @. |
| Contact.EmailCheckMatchesPattern | src/app/api/contact/route.ts:17 | The email check accepts exactly the strings the pattern describes: a non-empty run with no whitespace or @, then @, then a run that contains a dot with something on both sides. |
| Contact.EmailCheckSound | src/app/api/contact/route.ts:17 | Every accepted email matches the pattern. |
| Contact.EmailCheckComplete | src/app/api/contact/route.ts:17 | Every string matching the pattern is accepted. |
| Contact.ValidEmailShape | src/app/api/contact/route.ts:17 | An accepted email has exactly one @, no whitespace, and a dot after the @. |
| Contact.EmailAccepted | src/app/api/contact/route.ts:17-18 | A typical address is accepted. |
| Contact.EmailWithoutDotRefused | src/app/api/contact/route.ts:17-18 | An address without a dot after the @ is refused. |
| Contact.EmailWithSpaceRefused | src/app/api/contact/route.ts:17-18 | An address containing a space is refused. |
| Contact.EmailWithTwoAtsRefused | src/app/api/contact/route.ts:17-18 | An address with two @ signs is refused. |
| Contact.EmailDotFirstRefused | src/app/api/contact/route.ts:17-18 | A dot directly after the @ is refused. |
| Contact.BreakLines | src/app/api/contact/route.ts:56 | The mail body holds no line feed. Each line feed grows into a four-character tag. |
| Contact.BreakLinesAppend | src/app/api/contact/route.ts:56 | The replacement works piecewise over concatenation. |
| Contact.BreakLinesNoNewline | src/app/api/contact/route.ts:56 | A message without line feeds is carried unchanged. |
| Contact.UnbreakBreakLines | src/app/api/contact/route.ts:56 | For a message without "<", the original can be recovered from the mail body. |
| Contact.HandleContact | src/app/api/contact/route.ts:4-63 | 400 "All fields are required" exactly when a field is missing or empty. 400 "Invalid email format" exactly when all fields are present but the email fails the check. The mail is sent exactly when both checks pass. It replies to the sender, its subject is "Contact Form: " plus the subject, and its body is the message with line feeds turned into breaks. |
| Contact.HandleContactSendsIffPattern | src/app/api/contact/route.ts:10-26 | Mail is sent exactly when every field is filled in and the email matches the pattern. |
| ChatBot.GenerateBotResponse | src/components/ChatBot.tsx:112-133 | A pricing keyword gives the pricing summary. Otherwise the first matching question gives its answer, and no match gives the fallback. |
| ChatBot.Reply | src/components/ChatBot.tsx:101 | The reply is chosen from the lowercased input. Pricing keywords in any case give the pricing summary. Otherwise the first question whose keyword the lowercased input contains gives its answer, and input matching nothing gets the fallback. |
| ChatBot.FirstMatch | src/components/ChatBot.tsx:125-129 | Finds the first question, in declaration order, whose keyword the input contains, or none when no keyword occurs. |
| ChatBot.ChooseAnswer | src/components/ChatBot.tsx:112-133 | The pricing answer comes exactly when the input mentions price, cost or plan. Otherwise the first matching common question answers. The fallback comes exactly when nothing matches. |
| ChatBot.ShippingCostUnreachable | src/components/ChatBot.tsx:46-129 | The "shipping cost" answer can never be given: its keyword contains "cost", and that triggers the pricing answer first. |
| ChatBot.ReplyIgnoresCase | src/components/ChatBot.tsx:101 | An input and its lowercase form get the same reply. |
| ChatBot.SendMessage | src/components/ChatBot.tsx:87-110 | Input that is blank after trimming leaves the history unchanged. Otherwise the user's message and then the bot's reply to the lowercased input are appended. |
| ChatBot.OpenChat | src/components/ChatBot.tsx:22-72 | Opening on an empty history adds the six greeting lines as bot messages, each stamped with its own clock reading. A non-empty history is kept. |
| ChatBot.OpenChatIdempotent | src/components/ChatBot.tsx:63-72 | Opening the chat again changes nothing. |
| Knowledge.FilterCategories | src/app/knowledge/page.tsx:77-82 | Keeps the categories, in their original order, whose title or some article title contains the query, ignoring case. It keeps exactly those, each as many times as it is listed. |
| Knowledge.EmptyQueryKeepsAll | src/app/knowledge/page.tsx:77-82 | An empty query keeps every category. |
| Knowledge.EmptyQueryShowsSix | src/app/knowledge/page.tsx:10-82 | With no query, all six categories show. |
| Knowledge.FilterIgnoresCase | src/app/knowledge/page.tsx:77-82 | The case of the query makes no difference. |
| Knowledge.MatchesNarrower | src/app/knowledge/page.tsx:77-82 | A category that matches a query also matches every part of that query. |
| Knowledge.LongerQueryNarrows | src/app/knowledge/page.tsx:77-82 | Extending the query keeps a subsequence of what the shorter query showed. |
| AdminDashboard.BanUser | src/app/admin/dashboard/page.tsx:65-69 | Every user with the id becomes Banned. Length, order, other users and other fields are unchanged. |
| AdminDashboard.UnbanUser | src/app/admin/dashboard/page.tsx:76-80 | Every user with the id becomes Active. Nothing else changes. |
| AdminDashboard.BanIdempotent | src/app/admin/dashboard/page.tsx:65-69 | Banning twice is banning once. |
| AdminDashboard.UnbanAfterBan | src/app/admin/dashboard/page.tsx:65-80 | Unbanning after a ban is the same as unbanning alone, so users with that id end up Active. |
| AdminDashboard.DeleteShipment | src/app/admin/dashboard/page.tsx:87-89 | Removes exactly the shipments with the id. The rest keep their relative order, and the length drops by the number removed. |
| AdminDashboard.SaveShipment | src/app/admin/dashboard/page.tsx:101-105 | Every shipment with the edited record's id is replaced by that record. Length and all other shipments are unchanged. |
| AdminDashboard.SaveIdempotent | src/app/admin/dashboard/page.tsx:101-105 | Saving the same record twice is saving it once. |
| AdminDashboard.DeleteAfterSave | src/app/admin/dashboard/page.tsx:87-105 | Deleting an id after saving a record with that id leaves what deleting alone would. |
| AdminDashboard.EditField | src/app/admin/dashboard/page.tsx:245-278 | Each input of the edit dialog changes only its own field. The id and the other fields are kept. |
| AdminDashboard.EditFieldUndo | src/app/admin/dashboard/page.tsx:245-278 | Typing a field's old value back restores the record. |
| CustomerDashboard.CountStatus | src/app/dashboard/page.tsx:187-207 | A counter never exceeds the total. It is 0 exactly when no booking has that status, and equals the total exactly when all do. |
| CustomerDashboard.CountAppend | src/app/dashboard/page.tsx:187-207 | Counting over two lists adds their counts. |
| CustomerDashboard.DistinctCountsWithinTotal | src/app/dashboard/page.tsx:178-207 | Counters for three distinct statuses together never exceed the total. |
| CustomerDashboard.CountersWithinTotal | src/app/dashboard/page.tsx:178-207 | The Pending, Completed and Active cards together never exceed Total Bookings. |
| CustomerDashboard.ActiveAlwaysZero | src/app/dashboard/page.tsx:187 | The Active Deliveries card shows 0 for every list of schema-valid bookings, because it looks for "in-transit" while the schema spells the status "in_transit". |
| CustomerDashboard.Badge | src/app/dashboard/page.tsx:300-307 | "Delivered" exactly for delivered, "In Transit" exactly for "in-transit", and "Pending" for every other status. |
| CustomerDashboard.SchemaBadges | src/app/dashboard/page.tsx:300-307 | Among schema statuses only delivered shows as such. Picked-up and in-transit bookings both show "Pending", and "In Transit" never appears. |
| CustomerDashboard.BadgeAgreesWithCounters | src/app/dashboard/page.tsx:187-307 | A booking counted as completed wears the Delivered badge, and one counted as active wears In Transit. Both hold in both directions. |
| CustomerDashboard.RecentActivity | src/app/dashboard/page.tsx:243 | Recent activity is the first min(3, n) bookings, in list order. |
| CustomerDashboard.LastSix | src/app/dashboard/page.tsx:295 | Gives the id's last six characters, or the whole id when it is shorter. |
| CustomerDashboard.BookingLabel | src/app/dashboard/page.tsx:295 | The label is "Booking #" followed by the id's last six characters, or by the whole id when it is shorter. |
| CustomerDashboard.SameTailSameLabel | src/app/dashboard/page.tsx:295 | Ids ending in the same six characters get the same label. |
| Calculator.BasePrice | src/app/calculator/page.tsx:25-33 | 9.99 for express, 19.99 for premium, 5.99 for anything else. |
| Calculator.WeightMultiplier | src/app/calculator/page.tsx:36-37 | 1 up to 5 kg, then weight divided by 5. |
| Calculator.VolumeMultiplier | src/app/calculator/page.tsx:40-41 | 1 up to a volume of 1000, then the volume divided by 1000. |
| Calculator.Quote | src/app/calculator/page.tsx:23-44 | The quote is never below the service's base price. It equals the base when the weight is at most 5 and L·W·H is at most 1,000,000. |
| Calculator.QuoteMonotoneInWeight | src/app/calculator/page.tsx:36-41 | A heavier parcel never gets a lower quote. |
| Calculator.QuoteMonotoneInVolume | src/app/calculator/page.tsx:26-41 | A larger volume never gets a lower quote. |
| Calculator.VolumeMonotone | src/app/calculator/page.tsx:26 | For positive dimensions, growing the length, width or height never shrinks the volume. |
| Calculator.QuoteMonotoneInDimensions | src/app/calculator/page.tsx:26-41 | For positive dimensions, the quote never decreases as the length, width or height grows. |
| Calculator.DefaultFormQuote | src/app/calculator/page.tsx:12-44 | The form's defaults, a standard 20 cm cube of 1 kg, quote the base 5.99. |
| Calculator.HeavyParcelQuote | src/app/calculator/page.tsx:23-44 | A 10 kg express parcel with a volume of 1 quotes 19.98. |
| Calculator.DeliveryLabel | src/app/calculator/page.tsx:187-188 | "3-5 days" for standard, "1-2 days" for express, and "Same day" for anything else. |
| Calculator.MenuAgreesWithLabel | src/app/calculator/page.tsx:145-188 | Each entry of the service menu shows the delivery time that the quote later displays for it. |
| Calculator.FasterCostsMore | src/app/calculator/page.tsx:25-147 | Down the service menu, delivery gets faster and the base price rises. |
| Text.Split | src/app/api/bookings/route.ts:133 | Splitting gives at least one piece. No piece holds the separator, and joining the pieces with it gives the input back. |
| Text.SplitJoin | src/app/api/bookings/route.ts:133 | Splitting a join of separator-free pieces gives the pieces back. |
| Text.SplitPrefix | src/lib/auth.ts:22 | Text before the first separator is the first piece. The rest splits on its own. |
| Text.Trim | src/app/api/bookings/route.ts:133 | The result has no leading or trailing whitespace and holds only characters of the input. It is empty exactly when the input is all whitespace. |
| Text.TrimPadding | src/app/api/bookings/route.ts:133 | Trimming removes exactly the whitespace padding around a trimmed string. |
| Text.ContainsIff | src/app/knowledge/page.tsx:78-80 | A string contains another exactly when the other occurs at some position. |
| Text.ContainsTransitive | src/components/ChatBot.tsx:114-126 | Containment is transitive. |
| Text.Lower | src/app/knowledge/page.tsx:78-80 | Lowercasing keeps the length and maps each character on its own. |
| Text.LowerIdempotent | src/components/ChatBot.tsx:101 | Lowercasing twice is lowercasing once. |
| Text.LowerContains | src/app/knowledge/page.tsx:78-80 | Containment survives lowercasing both sides. |

`BookingsRoute.DraftOf` builds the new booking from the request body:

- the customer is the verified user;
- the status is left to the schema default;
- the package type is the effective type;
- the tracking number encodes the draws;
- the weight is what `parseFloat` gives for the sent weight;
- the price follows the effective type and is NaN exactly when the weight is;
- the date follows the effective type;
- both addresses are parsed.

`BookingsRoute.Post` has these outcomes:

- 401 "Authentication required" exactly when there is no bearer header.
- 400 "Missing required fields" exactly when the header is present, verification passes and a required field is missing.
- 201 exactly when the header is present, verification passes, the required fields are present, and the request is storable: the package type is in the enum, the weight is a number, the user id is an ObjectId, and the drawn tracking number is not stored yet.
- 500 "Failed to create booking" exactly when verification fails, or the fields are present but the request is not storable. Only 201, 400, 401 and 500 occur.
- A failure leaves the store unchanged.
- A 201 stores one new pending booking under the tracking number that encodes the draws. It carries both parsed addresses, the effective type, the parsed weight, the date for that type and the verified user as customer. `createdAt` is the clock reading taken when the document is constructed, and `updatedAt` the later reading taken by the pre-save hook.

## Left out

- React rendering, hooks, toasts, navigation and local storage on every page are not modelled. Only the list and string computations behind them are.
- Database connection, query execution and sorting are not modelled. GET is modelled up to the verified user id: its `find` by `userId` and sort by creation date are left out. The schema stores the owner under `customer`, not `userId`. Depending on Mongoose's `strictQuery` setting, the filter either reaches the database and matches no booking, or is stripped and matches every booking.
- The `packageDescription`, `specialInstructions` and `price` fields sent to the schema are kept beside the booking, not in it: the schema does not declare them, and strict mode drops them.
- JWT signing and verification are left out. Verification is a parameter, and `generateToken` is not modelled.
- `parseFloat` is a parameter. The model does not describe how it parses. NaN is its `None`; infinities are not modelled.
- A tracking-number collision is not retried. It surfaces as the 500 error.
- BookingsRoute.Post: a body that is not JSON makes `request.json()` throw, which gives a 500. A `pickupAddress` or `deliveryAddress` that is truthy but not a string makes `split` throw, which also gives a 500. Neither is modelled. Non-string values of the other fields are not modelled either, because the body is a record of optional strings. A numeric `packageWeight` would go through `parseFloat`, and a numeric `packageType` would be refused by the schema enum.
- BookingSchema.Create: the ObjectId cast is modelled as accepting exactly 24 hexadecimal digits. Some BSON versions also accept any 12-character string, and those are treated as failures here.
- BookingsRoute.CreateDraft: the login route signs the user id of a stored user, so in practice it is always an ObjectId. The model still treats other ids as the 500 the cast would cause.
- Mail delivery through nodemailer, the transporter check and their error path are not modelled. The model stops at the composed mail.
- Calculator.Quote: leaves out the `toFixed(2)` display rounding, and computes over exact reals rather than binary floating point.
- BookingsRoute.EstimatedDeliveryDate: dates are integer day numbers. Calendar, time zone and daylight-saving effects are not modelled.
- Timestamps are integers supplied by the caller. The chatbot's one-second reply delay is not modelled.
- `Math.random` is replaced by ten draws already scaled to indices below 36. The model does not include the scaling itself.
- Text.Lower: lowercases ASCII letters only. `toLowerCase` on other Unicode letters is not modelled.
- Header names are taken as already lower-case. The case-insensitive lookup of `Headers.get` is not modelled.
- ChatBot.SendMessage: the quick-action buttons read the input before the state update lands. That stale-state behaviour is not modelled.
- The schedules, routes, vehicles, tracking, login and signup endpoints are not part of this model.
- The AI flows (`improve-address-quality`, `suggest-package-options`) are not part of this model.
- Contact.HandleContact: the body is a record of optional strings. Two 500 paths through the handler's catch are not modelled: a body that is not JSON, or is `null`, makes the destructuring of `request.json()` throw; a truthy `message` that is not a string makes `message.replace` throw.
- Contact: the HTML template around the message is left out. The model covers the reply-to address, the subject, the name and the rewritten message.

=== FILE: admin_dashboard.dfy ===
/** The admin dashboard's list operations on its in-memory users and shipments:
    ban and unban by user id, delete and save by shipment id, and the edit
    dialog's field updates. Each returns the new list; nothing is persisted. */
module AdminDashboard {
  import opened Seqs

  datatype User = User(id: int, name: string, email: string, status: string, shipments: int)

  datatype Shipment = Shipment(id: int, trackingNumber: string, status: string, price: string, user: string)

  /** Gives every user with the id the status; all else stays as it was. */
  function SetUserStatus(users: seq<User>, id: int, status: string): (r: seq<User>)
    ensures |r| == |users|
    ensures forall i :: 0 <= i < |users| && users[i].id == id ==> r[i] == users[i].(status := status)
    ensures forall i :: 0 <= i < |users| && users[i].id != id ==> r[i] == users[i]
  {
    if |users| == 0 then []
    else
      var head := if users[0].id == id then users[0].(status := status) else users[0];
      var rest := SetUserStatus(users[1..], id, status);
      assert forall i :: 1 <= i < |users| ==> ([head] + rest)[i] == rest[i - 1];
      [head] + rest
  }

  /** Banning marks the users with the id `Banned` and touches nothing else:
      the order, the other users and every other field stay as they were. */
  function BanUser(users: seq<User>, id: int): (r: seq<User>)
    ensures |r| == |users|
    ensures forall i :: 0 <= i < |users| ==>
      && r[i].(status := users[i].status) == users[i]
      && (users[i].id == id ==> r[i].status == "Banned")
      && (users[i].id != id ==> r[i] == users[i])
  {
    SetUserStatus(users, id, "Banned")
  }

  /** Unbanning marks the users with the id `Active`, touching nothing else. */
  function UnbanUser(users: seq<User>, id: int): (r: seq<User>)
    ensures |r| == |users|
    ensures forall i :: 0 <= i < |users| ==>
      && r[i].(status := users[i].status) == users[i]
      && (users[i].id == id ==> r[i].status == "Active")
      && (users[i].id != id ==> r[i] == users[i])
  {
    SetUserStatus(users, id, "Active")
  }

  /** Banning twice is banning once. */
  lemma {:induction false} BanIdempotent(users: seq<User>, id: int)
    ensures BanUser(BanUser(users, id), id) == BanUser(users, id)
  {
    var once := BanUser(users, id);
    var twice := BanUser(once, id);
    assert forall i :: 0 <= i < |users| ==> once[i].id == users[i].id;
    assert forall i :: 0 <= i < |users| ==> twice[i] == once[i];
  }

  /** Unbanning after banning leaves the users as a plain unban would: every user
      with that id is `Active`, and the others are untouched. */
  lemma {:induction false} UnbanAfterBan(users: seq<User>, id: int)
    ensures UnbanUser(BanUser(users, id), id) == UnbanUser(users, id)
    ensures forall i :: 0 <= i < |users| && users[i].id == id ==> UnbanUser(BanUser(users, id), id)[i].status == "Active"
  {
    var banned := BanUser(users, id);
    var restored := UnbanUser(banned, id);
    assert forall i :: 0 <= i < |users| ==> banned[i].id == users[i].id;
    assert forall i :: 0 <= i < |users| ==> restored[i] == UnbanUser(users, id)[i];
  }

  /** The number of shipments with the id. */
  function CountId(shipments: seq<Shipment>, id: int): nat {
    if |shipments| == 0 then 0
    else (if shipments[0].id == id then 1 else 0) + CountId(shipments[1..], id)
  }

  /** Deleting removes exactly the shipments with the id and keeps the others
      in their relative order. */
  function DeleteShipment(shipments: seq<Shipment>, id: int): (r: seq<Shipment>)
    ensures IsSubsequence(r, shipments)
    ensures forall s :: s in r <==> s in shipments && s.id != id
    ensures |r| == |shipments| - CountId(shipments, id)
  {
    if |shipments| == 0 then []
    else
      var rest := DeleteShipment(shipments[1..], id);
      assert forall s :: s in shipments <==> s == shipments[0] || s in shipments[1..];
      if shipments[0].id != id then
        assert ([shipments[0]] + rest)[1..] == rest;
        [shipments[0]] + rest
      else rest
  }

  /** Replaces every shipment that has the edited record's id by that record. */
  function SaveShipment(shipments: seq<Shipment>, edited: Shipment): (r: seq<Shipment>)
    ensures |r| == |shipments|
    ensures forall i :: 0 <= i < |shipments| ==> r[i] == (if shipments[i].id == edited.id then edited else shipments[i])
  {
    if |shipments| == 0 then []
    else
      var head := if shipments[0].id == edited.id then edited else shipments[0];
      var rest := SaveShipment(shipments[1..], edited);
      assert forall i :: 1 <= i < |shipments| ==> ([head] + rest)[i] == rest[i - 1];
      [head] + rest
  }

  /** Saving the same record twice is saving it once. */
  lemma {:induction false} SaveIdempotent(shipments: seq<Shipment>, edited: Shipment)
    ensures SaveShipment(SaveShipment(shipments, edited), edited) == SaveShipment(shipments, edited)
  {
    var once := SaveShipment(shipments, edited);
    assert forall i :: 0 <= i < |shipments| ==> SaveShipment(once, edited)[i] == once[i];
  }

  /** Deleting after saving removes the saved record along with the rest of its
      id: the shipments of other ids are what deleting alone would leave. */
  lemma {:induction false} DeleteAfterSave(shipments: seq<Shipment>, edited: Shipment)
    ensures DeleteShipment(SaveShipment(shipments, edited), edited.id) == DeleteShipment(shipments, edited.id)
    decreases |shipments|
  {
    if |shipments| > 0 {
      var saved := SaveShipment(shipments, edited);
      assert saved[1..] == SaveShipment(shipments[1..], edited);
      DeleteAfterSave(shipments[1..], edited);
    }
  }

  /** The edit dialog's inputs. */
  datatype ShipmentField = TrackingNumberField | StatusField | PriceField | UserField

  function Field(s: Shipment, f: ShipmentField): string {
    match f
    case TrackingNumberField => s.trackingNumber
    case StatusField => s.status
    case PriceField => s.price
    case UserField => s.user
  }

  /** An input's change handler: the editing record with that one field replaced. */
  function EditField(s: Shipment, f: ShipmentField, value: string): (r: Shipment)
    ensures r.id == s.id
    ensures Field(r, f) == value
    ensures forall g :: g != f ==> Field(r, g) == Field(s, g)
  {
    match f
    case TrackingNumberField => s.(trackingNumber := value)
    case StatusField => s.(status := value)
    case PriceField => s.(price := value)
    case UserField => s.(user := value)
  }

  /** Typing the old value back restores the record. */
  lemma EditFieldUndo(s: Shipment, f: ShipmentField, value: string)
    ensures EditField(EditField(s, f, value), f, Field(s, f)) == s
  {
  }
}

=== FILE: auth.dfy ===
/** Bearer-token extraction from an `Authorization` header. Token verification
    and issuance are not part of this model; callers receive the verifier as a
    parameter. */
module Auth {
  import opened Wrappers
  import opened Text

  /** The header's first space-separated word must be exactly `Bearer` and its
      second word, the token, must be nonempty; words after the second are
      ignored. A missing or empty header yields nothing. */
  function GetTokenFromHeaders(header: Option<string>): (token: Option<string>)
    ensures header.None? ==> token.None?
    ensures token.Some? ==> token.value != "" && ' ' !in token.value
    ensures token.Some? ==>
      || header.value == "Bearer " + token.value
      || StartsWith(header.value, "Bearer " + token.value + " ")
  {
    if !Truthy(header) then None
    else
      var parts := Split(header.value, ' ');
      if parts[0] != "Bearer" || |parts| < 2 || parts[1] == "" then None
      else
        var h := header.value;
        assert h == parts[0] + " " + Join(parts[1..], " ");
        var tail := parts[1..];
        assert h == "Bearer " + tail[0] + (if |tail| == 1 then "" else " " + Join(tail[1..], " "));
        Some(parts[1])
  }

  /** A nonempty, space-free token after `"Bearer "` is extracted exactly, and
      whatever follows it after a further space is ignored. */
  lemma TokenRoundTrip(t: string, rest: string)
    requires t != "" && ' ' !in t
    ensures GetTokenFromHeaders(Some("Bearer " + t)) == Some(t)
    ensures GetTokenFromHeaders(Some("Bearer " + t + " " + rest)) == Some(t)
  {
    var h := "Bearer " + t;
    assert h == "Bearer" + [' '] + t;
    SplitPrefix("Bearer", ' ', t);
    SplitNoSep(t, ' ');
    var h' := "Bearer " + t + " " + rest;
    assert h' == "Bearer" + [' '] + (t + [' '] + rest);
    SplitPrefix("Bearer", ' ', t + [' '] + rest);
    SplitPrefix(t, ' ', rest);
  }

  /** A header whose first word is not exactly `Bearer` (compared case-sensitively)
      yields nothing. */
  lemma WrongSchemeRejected(word: string, rest: string)
    requires ' ' !in word && word != "Bearer"
    ensures GetTokenFromHeaders(Some(word)) == None
    ensures GetTokenFromHeaders(Some(word + " " + rest)) == None
  {
    SplitNoSep(word, ' ');
    assert word + " " + rest == word + [' '] + rest;
    SplitPrefix(word, ' ', rest);
  }

  /** An empty second word yields nothing: `"Bearer"` alone, `"Bearer "`, or two
      spaces after the scheme. */
  lemma EmptyTokenRejected(rest: string)
    ensures GetTokenFromHeaders(Some("Bearer")) == None
    ensures GetTokenFromHeaders(Some("Bearer ")) == None
    ensures GetTokenFromHeaders(Some("Bearer  " + rest)) == None
  {
    SplitNoSep("Bearer", ' ');
    assert "Bearer " == "Bearer" + [' '] + "";
    SplitPrefix("Bearer", ' ', "");
    assert "Bearer  " + rest == "Bearer" + [' '] + ("" + [' '] + rest);
    SplitPrefix("Bearer", ' ', "" + [' '] + rest);
    SplitPrefix("", ' ', rest);
  }
}

=== FILE: booking_schema.dfy ===
/** The Booking document schema: its enumerations and defaults, the validation a
    document must pass before it is saved, the pre-save hook that refreshes
    `updatedAt`, and the unique index on `trackingNumber`, modelled as a map from
    tracking number to stored booking. Dates and times are integers (day numbers
    or clock ticks); who supplies them is up to the caller. */
module BookingSchema {
  import opened Wrappers

  /** The four values the `status` enum admits. */
  datatype Status = Pending | PickedUp | InTransit | Delivered

  /** The four values the `packageType` enum admits. */
  datatype PackageType = Standard | Express | Fragile | Large

  /** The string a status is stored and serialised as. */
  function StatusName(s: Status): string {
    match s
    case Pending => "pending"
    case PickedUp => "picked_up"
    case InTransit => "in_transit"
    case Delivered => "delivered"
  }

  /** The enum check on `status`: the status a string names, if any. */
  function ParseStatus(s: string): (r: Option<Status>)
    ensures r.Some? ==> StatusName(r.value) == s
    ensures forall st: Status :: StatusName(st) == s ==> r == Some(st)
  {
    if s == "pending" then Some(Pending)
    else if s == "picked_up" then Some(PickedUp)
    else if s == "in_transit" then Some(InTransit)
    else if s == "delivered" then Some(Delivered)
    else None
  }

  /** The string a package type is stored as. */
  function PackageTypeName(t: PackageType): string {
    match t
    case Standard => "standard"
    case Express => "express"
    case Fragile => "fragile"
    case Large => "large"
  }

  /** The enum check on `packageType`: the package type a string names, if any. */
  function ParsePackageType(s: string): (r: Option<PackageType>)
    ensures r.Some? ==> PackageTypeName(r.value) == s
    ensures forall t: PackageType :: PackageTypeName(t) == s ==> r == Some(t)
  {
    if s == "standard" then Some(Standard)
    else if s == "express" then Some(Express)
    else if s == "fragile" then Some(Fragile)
    else if s == "large" then Some(Large)
    else None
  }

  /** The address sub-document; its fields carry no constraints. */
  datatype Address = Address(street: string, city: string, state: string, zipCode: string, country: string)

  /** The values handed to the model constructor, before casting and validation:
      every schema path may be absent, and the enum paths hold arbitrary strings.
      A `weight` of None is one that is absent or does not cast to a number (NaN);
      `customer` holds the text the ObjectId cast is applied to. */
  datatype BookingInput = BookingInput(
    trackingNumber: Option<string>,
    status: Option<string>,
    pickupAddress: Address,
    deliveryAddress: Address,
    packageType: Option<string>,
    weight: Option<real>,
    estimatedDeliveryDate: Option<int>,
    actualDeliveryDate: Option<int>,
    customer: Option<string>)

  /** A booking document that passed validation. */
  datatype Booking = Booking(
    trackingNumber: string,
    status: Status,
    pickupAddress: Address,
    deliveryAddress: Address,
    packageType: PackageType,
    weight: real,
    estimatedDeliveryDate: int,
    actualDeliveryDate: Option<int>,
    customer: Option<string>,
    createdAt: int,
    updatedAt: int)

  /** Why a save was refused: a failed validator, or a second document with the
      same tracking number. */
  datatype SaveError = ValidationFailed | DuplicateKey

  /** A required string path: present and nonempty. */
  predicate RequiredString(o: Option<string>) {
    o.Some? && o.value != ""
  }

  predicate IsHexDigit(c: char) {
    '0' <= c <= '9' || 'a' <= c <= 'f' || 'A' <= c <= 'F'
  }

  /** Text the ObjectId cast accepts: 24 hexadecimal digits. */
  predicate IsObjectIdText(s: string) {
    |s| == 24 && forall i :: 0 <= i < |s| ==> IsHexDigit(s[i])
  }

  /** Every cast and validator of the schema passes on `input`. */
  predicate IsValid(input: BookingInput) {
    && RequiredString(input.trackingNumber)
    && (input.status.None? || ParseStatus(input.status.value).Some?)
    && RequiredString(input.packageType)
    && ParsePackageType(input.packageType.value).Some?
    && input.weight.Some?
    && input.estimatedDeliveryDate.Some?
    && (input.customer.None? || IsObjectIdText(input.customer.value))
  }

  /** Constructing and validating a document at time `now`: the defaults fill
      `status`, `createdAt` and `updatedAt`, and any failed validator refuses it. */
  function Create(input: BookingInput, now: int): (r: Result<Booking, SaveError>)
    ensures r.Success? <==> IsValid(input)
    ensures r.Failure? ==> r.error == ValidationFailed
    ensures r.Success? ==>
      && r.value.trackingNumber == input.trackingNumber.value
      && StatusName(r.value.status) == input.status.GetOr("pending")
      && PackageTypeName(r.value.packageType) == input.packageType.value
      && r.value.weight == input.weight.value
      && r.value.estimatedDeliveryDate == input.estimatedDeliveryDate.value
      && r.value.actualDeliveryDate == input.actualDeliveryDate
      && r.value.pickupAddress == input.pickupAddress
      && r.value.deliveryAddress == input.deliveryAddress
      && r.value.customer == input.customer
      && r.value.createdAt == now
      && r.value.updatedAt == now
  {
    if !IsValid(input) then Failure(ValidationFailed)
    else
      var status := if input.status.Some? then ParseStatus(input.status.value).value else Pending;
      Success(Booking(
        input.trackingNumber.value, status, input.pickupAddress, input.deliveryAddress,
        ParsePackageType(input.packageType.value).value, input.weight.value,
        input.estimatedDeliveryDate.value, input.actualDeliveryDate, input.customer, now, now))
  }

  /** The constructor input that describes a stored booking. */
  function InputOf(b: Booking): BookingInput {
    BookingInput(
      Some(b.trackingNumber), Some(StatusName(b.status)), b.pickupAddress, b.deliveryAddress,
      Some(PackageTypeName(b.packageType)), Some(b.weight), Some(b.estimatedDeliveryDate),
      b.actualDeliveryDate, b.customer)
  }

  /** Re-creating a booking from its own fields gives it back, with fresh
      timestamps, whenever its tracking number and customer could have been
      stored in the first place. */
  lemma CreateInputOf(b: Booking, now: int)
    requires b.trackingNumber != ""
    requires b.customer.None? || IsObjectIdText(b.customer.value)
    ensures Create(InputOf(b), now) == Success(b.(createdAt := now, updatedAt := now))
  {
    assert ParseStatus(StatusName(b.status)) == Some(b.status);
    assert ParsePackageType(PackageTypeName(b.packageType)) == Some(b.packageType);
  }

  /** A document with no `status` is pending. */
  lemma StatusDefaultsToPending(input: BookingInput, now: int)
    requires IsValid(input) && input.status.None?
    ensures Create(input, now).value.status == Pending
  {
  }

  /** The pre-save hook: stamps `updatedAt` with the time of saving. */
  function Touch(b: Booking, now: int): (r: Booking)
    ensures r.updatedAt == now
    ensures r.(updatedAt := b.updatedAt) == b
  {
    b.(updatedAt := now)
  }

  /** The bookings collection, indexed by the unique tracking number. */
  type Store = map<string, Booking>

  /** Every stored booking sits under its own tracking number. */
  predicate Indexed(store: Store) {
    forall k :: k in store ==> store[k].trackingNumber == k
  }

  /** Saving a new document: the pre-save hook runs, then the unique index refuses
      a tracking number that is already stored, leaving the store as it was. */
  function Insert(store: Store, b: Booking, now: int): (r: Result<Store, SaveError>)
    ensures r.Failure? <==> b.trackingNumber in store
    ensures r.Failure? ==> r.error == DuplicateKey
    ensures r.Success? ==>
      && r.value.Keys == store.Keys + {b.trackingNumber}
      && r.value[b.trackingNumber] == Touch(b, now)
      && forall k :: k in store ==> r.value[k] == store[k]
  {
    if b.trackingNumber in store then Failure(DuplicateKey)
    else Success(store[b.trackingNumber := Touch(b, now)])
  }

  /** Inserting keeps every booking under its own tracking number. */
  lemma InsertKeepsIndexed(store: Store, b: Booking, now: int)
    requires Indexed(store)
    requires Insert(store, b, now).Success?
    ensures Indexed(Insert(store, b, now).value)
  {
  }

  /** Once inserted, a tracking number cannot be inserted again, whatever the document. */
  lemma TrackingNumberStaysUnique(store: Store, b: Booking, c: Booking, now: int, later: int)
    requires Insert(store, b, now).Success?
    requires c.trackingNumber == b.trackingNumber
    ensures Insert(Insert(store, b, now).value, c, later) == Failure(DuplicateKey)
  {
  }
}

=== FILE: bookings_route.dfy ===
/** The booking endpoint: pricing and delivery-date rules, the tracking-number
    generator, the free-text address parser, and the GET and POST handlers with
    their authentication and required-field gates.

    The handlers' collaborators are parameters: `verify` stands for token
    verification (None when it throws), `parseWeight` for `parseFloat`, `today`
    and `now` for the clock, and `draws` for the ten `Math.random` draws, each
    already scaled to an index into the tracking-number alphabet. */
module BookingsRoute {
  import opened Wrappers
  import opened Text
  import opened BookingSchema

  // ---------------------------------------------------------------------------
  // Pricing and delivery date

  /** The base charge for a package type; any string but the three special
      types is charged as standard. */
  function BasePrice(packageType: string): real {
    if packageType == "express" then 25.0
    else if packageType == "fragile" then 20.0
    else if packageType == "large" then 15.0
    else 10.0
  }

  /** The price of a booking: the base charge plus 2 per unit of weight. */
  function Price(packageType: string, weight: real): (r: real)
    ensures r - 2.0 * weight in {10.0, 15.0, 20.0, 25.0}
    ensures packageType == "express" ==> r == 25.0 + 2.0 * weight
    ensures packageType == "fragile" ==> r == 20.0 + 2.0 * weight
    ensures packageType == "large" ==> r == 15.0 + 2.0 * weight
    ensures packageType !in {"express", "fragile", "large"} ==> r == 10.0 + 2.0 * weight
  {
    BasePrice(packageType) + weight * 2.0
  }

  /** Heavier parcels of the same type cost strictly more, and a parcel of
      non-negative weight never costs less than its base charge. */
  lemma PriceMonotone(packageType: string, w1: real, w2: real)
    ensures w1 < w2 ==> Price(packageType, w1) < Price(packageType, w2)
    ensures w1 >= 0.0 ==> Price(packageType, w1) >= BasePrice(packageType)
  {
  }

  /** Express carries the highest base charge, standard the lowest. */
  lemma BasePriceRange(packageType: string)
    ensures BasePrice("standard") <= BasePrice(packageType) <= BasePrice("express")
  {
  }

  /** Calendar days from booking to estimated delivery; unknown types get the
      standard three days. */
  function DeliveryDays(packageType: string): int {
    if packageType == "express" then 1
    else if packageType == "fragile" then 4
    else if packageType == "large" then 5
    else 3
  }

  /** The estimated delivery day for a booking made on day `today`. */
  function EstimatedDeliveryDate(packageType: string, today: int): (d: int)
    ensures today + 1 <= d <= today + 5
    ensures packageType == "express" ==> d == today + 1
    ensures packageType == "fragile" ==> d == today + 4
    ensures packageType == "large" ==> d == today + 5
    ensures packageType !in {"express", "fragile", "large"} ==> d == today + 3
  {
    today + DeliveryDays(packageType)
  }

  /** Express is the fastest service and large parcels the slowest; standard
      takes three days and fragile four. */
  lemma DeliveryOrder(packageType: string, today: int)
    ensures EstimatedDeliveryDate("express", today) <= EstimatedDeliveryDate(packageType, today)
    ensures EstimatedDeliveryDate(packageType, today) <= EstimatedDeliveryDate("large", today)
    ensures EstimatedDeliveryDate("standard", today) == today + 3
    ensures EstimatedDeliveryDate("fragile", today) == today + 4
  {
  }

  /** An express parcel of weight 2 costs 29 and arrives the next day. */
  lemma ExpressExample(today: int)
    ensures Price("express", 2.0) == 29.0
    ensures EstimatedDeliveryDate("express", today) == today + 1
  {
  }

  // ---------------------------------------------------------------------------
  // Tracking numbers

  /** The 36 symbols a tracking number is drawn from. */
  const Alphabet: string := "ABCDEFGHIJKLMNOPQRSTUVWXYZ0123456789"

  /** A tracking number has exactly this many symbols. */
  const TrackingLength: nat := 10

  /** The `i`-th symbol of the alphabet, computed: letters, then digits. */
  function Symbol(i: int): char
    requires 0 <= i < 36
  {
    if i < 26 then ('A' as int + i) as char else ('0' as int + i - 26) as char
  }

  /** The alphabet constant is letters `A`-`Z` then digits `0`-`9`. */
  lemma AlphabetSymbols()
    ensures |Alphabet| == 36
    ensures forall i :: 0 <= i < 36 ==> Alphabet[i] == Symbol(i)
  {
    assert Alphabet == seq(36, i requires 0 <= i < 36 => Symbol(i));
  }

  /** The alphabet's members are exactly the capital letters and the digits. */
  lemma AlphabetMembers(c: char)
    ensures c in Alphabet <==> 'A' <= c <= 'Z' || '0' <= c <= '9'
  {
    AlphabetSymbols();
    if c in Alphabet {
      var j :| 0 <= j < 36 && Alphabet[j] == c;
      assert Symbol(j) == c;
    }
    if 'A' <= c <= 'Z' {
      assert Alphabet[c as int - 'A' as int] == c;
    } else if '0' <= c <= '9' {
      assert Alphabet[c as int - '0' as int + 26] == c;
    }
  }

  /** Each draw indexes the alphabet. */
  predicate ValidDraws(draws: seq<int>) {
    forall i :: 0 <= i < |draws| ==> 0 <= draws[i] < |Alphabet|
  }

  /** The symbols the draws select, in draw order. */
  function Encode(draws: seq<int>): (t: string)
    requires ValidDraws(draws)
    ensures |t| == |draws|
    ensures forall i :: 0 <= i < |t| ==> t[i] in Alphabet
  {
    seq(|draws|, i requires 0 <= i < |draws| => Alphabet[draws[i]])
  }

  /** The position of a symbol in the alphabet, or -1 for any other character. */
  function SymbolIndex(c: char): (i: int)
    ensures -1 <= i < |Alphabet|
    ensures i >= 0 ==> Alphabet[i] == c
    ensures c in Alphabet ==> i >= 0
  {
    AlphabetSymbols();
    AlphabetMembers(c);
    if 'A' <= c <= 'Z' then c as int - 'A' as int
    else if '0' <= c <= '9' then c as int - '0' as int + 26
    else -1
  }

  /** The draws a string of alphabet symbols was encoded from. */
  function Decode(t: string): (draws: seq<int>)
    ensures |draws| == |t|
  {
    seq(|t|, i requires 0 <= i < |t| => SymbolIndex(t[i]))
  }

  /** Decoding recovers the draws: distinct draw sequences give distinct
      tracking numbers. */
  lemma DecodeEncode(draws: seq<int>)
    requires ValidDraws(draws)
    ensures Decode(Encode(draws)) == draws
  {
    AlphabetSymbols();
    var t := Encode(draws);
    forall i | 0 <= i < |draws|
      ensures Decode(t)[i] == draws[i]
    {
      var d := draws[i];
      assert t[i] == Symbol(d);
      assert SymbolIndex(t[i]) == d;
    }
  }

  /** Encoding a string of alphabet symbols after decoding it gives it back. */
  lemma EncodeDecode(t: string)
    requires forall i :: 0 <= i < |t| ==> t[i] in Alphabet
    ensures ValidDraws(Decode(t))
    ensures Encode(Decode(t)) == t
  {
  }

  /** Builds the tracking number symbol by symbol, as the generator's loop does. */
  method GenerateTrackingNumber(draws: seq<int>) returns (t: string)
    requires |draws| == TrackingLength && ValidDraws(draws)
    ensures |t| == TrackingLength
    ensures forall i :: 0 <= i < |t| ==> t[i] in Alphabet
    ensures Decode(t) == draws
  {
    t := "";
    var i := 0;
    while i < TrackingLength
      invariant 0 <= i <= TrackingLength
      invariant t == Encode(draws[..i])
    {
      assert draws[..i + 1] == draws[..i] + [draws[i]];
      t := t + [Alphabet[draws[i]]];
      i := i + 1;
    }
    assert draws[..TrackingLength] == draws;
    DecodeEncode(draws);
  }

  // ---------------------------------------------------------------------------
  // Address parsing

  /** The `i`-th comma-separated piece, trimmed; `''` when there is none. */
  function Piece(parts: seq<string>, i: nat): (r: string)
    ensures IsTrimmed(r)
    ensures (forall j :: 0 <= j < |parts| ==> ',' !in parts[j]) ==> ',' !in r
    ensures r == (if i < |parts| then Trim(parts[i]) else "")
  {
    if i < |parts| then Trim(parts[i]) else ""
  }

  /** The handler's address parser: split on commas, trim, read the first five
      pieces as street, city, state, zip code and country; missing pieces are
      empty, and a missing or empty country is `USA`. */
  function ParseAddress(address: string): (a: Address)
    ensures IsTrimmed(a.street) && IsTrimmed(a.city) && IsTrimmed(a.state) && IsTrimmed(a.zipCode)
    ensures IsTrimmed(a.country) && a.country != ""
    ensures ',' !in a.street && ',' !in a.city && ',' !in a.state && ',' !in a.zipCode && ',' !in a.country
    ensures var p := Split(address, ',');
      && a.street == Piece(p, 0)
      && a.city == Piece(p, 1)
      && a.state == Piece(p, 2)
      && a.zipCode == Piece(p, 3)
      && a.country == (if Piece(p, 4) != "" then Piece(p, 4) else "USA")
  {
    var parts := Split(address, ',');
    var street, city, state, zipCode, country :=
      Piece(parts, 0), Piece(parts, 1), Piece(parts, 2), Piece(parts, 3), Piece(parts, 4);
    Address(street, city, state, zipCode, if country == "" then "USA" else country)
  }

  /** The parser's fields spelled out: the first four comma-separated pieces
      trimmed, or empty when the address has fewer, and the fifth trimmed
      unless it is missing or blank, when it is `USA`. */
  lemma ParseAddressFields(address: string)
    ensures var a := ParseAddress(address);
      var p := Split(address, ',');
      && a.street == Trim(p[0])
      && a.city == (if |p| > 1 then Trim(p[1]) else "")
      && a.state == (if |p| > 2 then Trim(p[2]) else "")
      && a.zipCode == (if |p| > 3 then Trim(p[3]) else "")
      && a.country == (if |p| > 4 && Trim(p[4]) != "" then Trim(p[4]) else "USA")
  {
    var p := Split(address, ',');
    var c := Piece(p, 4);
    assert c == (if |p| > 4 then Trim(p[4]) else "");
  }

  /** A field the parser can reproduce: no comma, no padding. */
  predicate IsPlainField(f: string) {
    ',' !in f && IsTrimmed(f)
  }

  /** The canonical text form of an address: its fields joined by `", "`. */
  function FormatAddress(a: Address): string {
    Join([a.street, a.city, a.state, a.zipCode, a.country], ", ")
  }

  /** Each field with a space in front. */
  function Spaced(fields: seq<string>): seq<string> {
    if |fields| == 0 then [] else [" " + fields[0]] + Spaced(fields[1..])
  }

  /** Text put before a join lands on its first piece. */
  lemma JoinPrefixFirst(p: string, parts: seq<string>, sep: string)
    requires |parts| >= 1
    ensures p + Join(parts, sep) == Join([p + parts[0]] + parts[1..], sep)
  {
    var q := [p + parts[0]] + parts[1..];
    assert q[1..] == parts[1..];
  }

  /** `", "`-joining is `","`-joining of space-prefixed pieces. */
  lemma {:induction false} JoinCommaSpace(fields: seq<string>)
    requires |fields| >= 1
    ensures Join(fields, ", ") == Join([fields[0]] + Spaced(fields[1..]), [','])
    decreases |fields|
  {
    if |fields| > 1 {
      var rest := fields[1..];
      JoinCommaSpace(rest);
      var inner := [rest[0]] + Spaced(rest[1..]);
      JoinPrefixFirst(" ", inner, [',']);
      assert [" " + inner[0]] + inner[1..] == Spaced(rest);
      assert ([fields[0]] + Spaced(rest))[1..] == Spaced(rest);
    }
  }

  /** A space-prefixed plain field trims back to itself. */
  lemma TrimSpaced(f: string)
    requires IsTrimmed(f)
    ensures Trim(" " + f) == f
  {
    TrimPadding(" ", f, "");
    assert " " + f + "" == " " + f;
  }

  /** Parsing undoes formatting for every address whose fields are plain and
      whose country is nonempty. */
  lemma ParseFormatAddress(a: Address)
    requires IsPlainField(a.street) && IsPlainField(a.city) && IsPlainField(a.state)
    requires IsPlainField(a.zipCode) && IsPlainField(a.country) && a.country != ""
    ensures ParseAddress(FormatAddress(a)) == a
  {
    var fields := [a.street, a.city, a.state, a.zipCode, a.country];
    JoinCommaSpace(fields);
    var pieces := [a.street, " " + a.city, " " + a.state, " " + a.zipCode, " " + a.country];
    assert fields[1..] == [a.city, a.state, a.zipCode, a.country];
    assert Spaced([a.country]) == [" " + a.country];
    assert Spaced([a.zipCode, a.country]) == [" " + a.zipCode, " " + a.country];
    assert Spaced([a.state, a.zipCode, a.country]) == [" " + a.state, " " + a.zipCode, " " + a.country];
    assert [fields[0]] + Spaced(fields[1..]) == pieces;
    SplitJoin(pieces, ',');
    TrimTrimmed(a.street);
    TrimSpaced(a.city);
    TrimSpaced(a.state);
    TrimSpaced(a.zipCode);
    TrimSpaced(a.country);
  }

  /** Pieces beyond the fifth are ignored. */
  lemma ParseAddressDropsExtra(pieces: seq<string>, extra: seq<string>)
    requires |pieces| == 5
    requires forall i :: 0 <= i < |pieces| ==> ',' !in pieces[i]
    requires forall i :: 0 <= i < |extra| ==> ',' !in extra[i]
    ensures ParseAddress(Join(pieces + extra, [','])) == ParseAddress(Join(pieces, [',']))
  {
    SplitJoin(pieces + extra, ',');
    SplitJoin(pieces, ',');
  }

  /** Text with no comma is all street; an empty or blank string yields the
      default address. */
  lemma ParseAddressShort(s: string)
    requires ',' !in s
    ensures ParseAddress(s) == Address(Trim(s), "", "", "", "USA")
    ensures AllSpace(s) ==> ParseAddress(s) == Address("", "", "", "", "USA")
  {
    SplitNoSep(s, ',');
  }

  // ---------------------------------------------------------------------------
  // Handlers

  /** What a verified token carries. */
  datatype Claims = Claims(userId: string)

  /** An HTTP reply: a status code and a JSON body. */
  datatype Reply = Reply(status: int, body: ReplyBody)

  datatype ReplyBody =
    | Error(message: string)
      /** 200: the result of the database query on the `userId` path with the
          verified id, whatever that query returns. */
    | BookingsOf(userId: string)
      /** 201: the booking just saved. */
    | Created(booking: Booking)

  /** The first piece of a split is the whole string, or is followed by the
      separator. */
  lemma FirstPieceShape(s: string, sep: char)
    ensures s == Split(s, sep)[0] || StartsWith(s, Split(s, sep)[0] + [sep])
  {
    var parts := Split(s, sep);
    if |parts| > 1 {
      assert s == parts[0] + [sep] + Join(parts[1..], [sep]);
      assert s[..|parts[0]| + 1] == parts[0] + [sep];
    }
  }

  /** After `"Bearer "`, the second piece of the header is the first piece of
      what follows, and it is the rest of the header or followed by a space. */
  lemma BearerSecondPiece(rest: string)
    ensures |Split("Bearer " + rest, ' ')| >= 2
    ensures Split("Bearer " + rest, ' ')[1] == Split(rest, ' ')[0]
    ensures var t := Split(rest, ' ')[0];
      || "Bearer " + rest == "Bearer " + t
      || StartsWith("Bearer " + rest, "Bearer " + t + " ")
  {
    assert "Bearer " + rest == "Bearer" + [' '] + rest;
    SplitPrefix("Bearer", ' ', rest);
    FirstPieceShape(rest, ' ');
    var t := Split(rest, ' ')[0];
    if rest != t {
      assert ("Bearer " + rest)[..7 + |t| + 1] == "Bearer " + rest[..|t| + 1];
      assert rest[..|t| + 1] == t + " ";
    }
  }

  /** The gate both handlers share: a header that is present and starts with
      `"Bearer "` yields its second space-separated piece, which may be empty. */
  function BearerToken(header: Option<string>): (token: Option<string>)
    ensures token.Some? <==> header.Some? && StartsWith(header.value, "Bearer ")
    ensures token.Some? ==> ' ' !in token.value
    ensures token.Some? ==>
      || header.value == "Bearer " + token.value
      || StartsWith(header.value, "Bearer " + token.value + " ")
  {
    if header.None? || !StartsWith(header.value, "Bearer ") then None
    else
      var h := header.value;
      assert h == "Bearer " + h[7..];
      BearerSecondPiece(h[7..]);
      Some(Split(h, ' ')[1])
  }

  /** GET: list the caller's bookings. A missing or non-bearer header is 401;
      a token that fails verification is a 500, as the handler's catch-all turns
      the thrown error into one. */
  function Get(header: Option<string>, verify: string -> Option<Claims>): (r: Reply)
    ensures r.status == 401 <==> BearerToken(header).None?
    ensures r.status == 401 ==> r.body == Error("Authentication required")
    ensures r.status == 500 <==> BearerToken(header).Some? && verify(BearerToken(header).value).None?
    ensures r.status == 200 ==> r.body == BookingsOf(verify(BearerToken(header).value).value.userId)
    ensures r.status in {200, 401, 500}
  {
    match BearerToken(header)
    case None => Reply(401, Error("Authentication required"))
    case Some(token) =>
      match verify(token)
      case None => Reply(500, Error("Failed to fetch bookings"))
      case Some(claims) => Reply(200, BookingsOf(claims.userId))
  }

  /** The JSON body of a booking request, as the form sends it: every field a
      string that may be missing. */
  datatype BookingBody = BookingBody(
    pickupAddress: Option<string>,
    deliveryAddress: Option<string>,
    packageType: Option<string>,
    packageWeight: Option<string>,
    packageDescription: Option<string>,
    specialInstructions: Option<string>)

  /** The four fields the handler refuses to go without. */
  predicate HasRequiredFields(body: BookingBody) {
    && Truthy(body.pickupAddress)
    && Truthy(body.deliveryAddress)
    && Truthy(body.packageWeight)
    && Truthy(body.packageDescription)
  }

  /** The package type the handler works with: the body's, or `standard` when it
      is missing or empty. */
  function EffectiveType(body: BookingBody): (t: string)
    ensures t != ""
    ensures Truthy(body.packageType) ==> t == body.packageType.value
  {
    if Truthy(body.packageType) then body.packageType.value else "standard"
  }

  /** Everything the handler passes to the model constructor. The price, the
      description and the special instructions are computed and passed too,
      but the schema has no path for them, so they do not reach the stored
      booking. A price of None is NaN, from a weight that is not a number. */
  datatype Draft = Draft(
    input: BookingInput,
    packageDescription: string,
    specialInstructions: string,
    price: Option<real>)

  /** The document the handler builds from a request that passed its gates. */
  function DraftOf(userId: string, body: BookingBody, parseWeight: string -> Option<real>, today: int,
                   draws: seq<int>): (d: Draft)
    requires HasRequiredFields(body)
    requires |draws| == TrackingLength && ValidDraws(draws)
    ensures d.input.status.None?
    ensures d.input.customer == Some(userId)
    ensures d.input.packageType == Some(EffectiveType(body))
    ensures d.input.trackingNumber == Some(Encode(draws))
    ensures |d.input.trackingNumber.value| == TrackingLength
    ensures Decode(d.input.trackingNumber.value) == draws
    ensures d.input.weight == parseWeight(body.packageWeight.value)
    ensures d.price.Some? <==> d.input.weight.Some?
    ensures d.price.Some? ==> d.price.value == Price(EffectiveType(body), d.input.weight.value)
    ensures d.input.estimatedDeliveryDate == Some(EstimatedDeliveryDate(EffectiveType(body), today))
    ensures d.input.pickupAddress == ParseAddress(body.pickupAddress.value)
    ensures d.input.deliveryAddress == ParseAddress(body.deliveryAddress.value)
  {
    DecodeEncode(draws);
    var packageType := EffectiveType(body);
    var weight := parseWeight(body.packageWeight.value);
    Draft(
      BookingInput(
        Some(Encode(draws)), None,
        ParseAddress(body.pickupAddress.value), ParseAddress(body.deliveryAddress.value),
        Some(packageType), weight, Some(EstimatedDeliveryDate(packageType, today)),
        None, Some(userId)),
      body.packageDescription.value,
      body.specialInstructions.GetOr(""),
      if weight.Some? then Some(Price(packageType, weight.value)) else None)
  }

  /** A request from `userId` that passed the handler's own gates survives the
      schema and the unique index: its package type is one the schema knows, its
      weight casts to a number, the user id casts to an ObjectId, and no stored
      booking has the drawn tracking number. */
  predicate Storable(userId: string, body: BookingBody, parseWeight: string -> Option<real>,
                     trackingNumber: string, store: Store)
    requires HasRequiredFields(body)
  {
    && Validates(userId, body, parseWeight)
    && trackingNumber !in store
  }

  /** The schema's casts and validators accept what the handler builds. */
  predicate Validates(userId: string, body: BookingBody, parseWeight: string -> Option<real>)
    requires HasRequiredFields(body)
  {
    && ParsePackageType(EffectiveType(body)).Some?
    && parseWeight(body.packageWeight.value).Some?
    && IsObjectIdText(userId)
  }

  /** The document the handler builds passes validation exactly when the
      package type, the weight and the user id cast, and the booking it
      becomes carries the parsed request. */
  lemma CreateDraft(userId: string, body: BookingBody, parseWeight: string -> Option<real>, today: int,
                    now: int, draws: seq<int>)
    requires HasRequiredFields(body)
    requires |draws| == TrackingLength && ValidDraws(draws)
    ensures var r := Create(DraftOf(userId, body, parseWeight, today, draws).input, now);
      && (r.Success? <==> Validates(userId, body, parseWeight))
      && (r.Success? ==>
        && r.value.trackingNumber == Encode(draws)
        && r.value.status == Pending
        && r.value.pickupAddress == ParseAddress(body.pickupAddress.value)
        && r.value.deliveryAddress == ParseAddress(body.deliveryAddress.value)
        && PackageTypeName(r.value.packageType) == EffectiveType(body)
        && r.value.weight == parseWeight(body.packageWeight.value).value
        && r.value.estimatedDeliveryDate == EstimatedDeliveryDate(EffectiveType(body), today)
        && r.value.actualDeliveryDate.None?
        && r.value.customer == Some(userId)
        && r.value.createdAt == now)
  {
    var d := DraftOf(userId, body, parseWeight, today, draws);
    assert |d.input.trackingNumber.value| == TrackingLength;
    if Create(d.input, now).Success? {
      StatusDefaultsToPending(d.input, now);
    }
  }

  /** POST: create a booking. The gates run in order (bearer header, token,
      required fields); a token that fails verification, and a document refused
      by validation or by the unique index, surface as a 500. Only a 201 changes
      the store, and then by exactly one new booking. The clock is read twice:
      `now` when the document is constructed, `savedAt` when the pre-save hook
      runs. */
  function Post(header: Option<string>, verify: string -> Option<Claims>, body: BookingBody,
                parseWeight: string -> Option<real>, today: int, now: int, savedAt: int,
                draws: seq<int>, store: Store): (r: (Reply, Store))
    requires |draws| == TrackingLength && ValidDraws(draws)
    ensures r.0.status == 401 <==> BearerToken(header).None?
    ensures r.0.status == 401 ==> r.0.body == Error("Authentication required")
    ensures r.0.status == 400 <==>
      BearerToken(header).Some? && verify(BearerToken(header).value).Some? && !HasRequiredFields(body)
    ensures r.0.status == 400 ==> r.0.body == Error("Missing required fields")
    ensures r.0.status == 201 <==>
      && BearerToken(header).Some?
      && verify(BearerToken(header).value).Some?
      && HasRequiredFields(body)
      && Storable(verify(BearerToken(header).value).value.userId, body, parseWeight, Encode(draws), store)
    ensures r.0.status == 500 <==>
      && BearerToken(header).Some?
      && (|| verify(BearerToken(header).value).None?
          || (&& HasRequiredFields(body)
              && !Storable(verify(BearerToken(header).value).value.userId, body, parseWeight, Encode(draws), store)))
    ensures r.0.status == 500 ==> r.0.body == Error("Failed to create booking")
    ensures r.0.status in {201, 400, 401, 500}
    ensures r.0.status != 201 ==> r.1 == store
    ensures r.0.status == 201 ==>
      && r.0.body.Created?
      && var b := r.0.body.booking;
      && b.trackingNumber == Encode(draws)
      && r.1 == store[b.trackingNumber := b]
      && Decode(b.trackingNumber) == draws
      && b.status == Pending
      && b.pickupAddress == ParseAddress(body.pickupAddress.value)
      && b.deliveryAddress == ParseAddress(body.deliveryAddress.value)
      && PackageTypeName(b.packageType) == EffectiveType(body)
      && b.weight == parseWeight(body.packageWeight.value).value
      && b.estimatedDeliveryDate == EstimatedDeliveryDate(EffectiveType(body), today)
      && b.actualDeliveryDate.None?
      && b.customer == Some(verify(BearerToken(header).value).value.userId)
      && b.createdAt == now && b.updatedAt == savedAt
  {
    match BearerToken(header)
    case None => (Reply(401, Error("Authentication required")), store)
    case Some(token) =>
      match verify(token)
      case None => (Reply(500, Error("Failed to create booking")), store)
      case Some(claims) =>
        if !HasRequiredFields(body) then (Reply(400, Error("Missing required fields")), store)
        else
          var draft := DraftOf(claims.userId, body, parseWeight, today, draws);
          CreateDraft(claims.userId, body, parseWeight, today, now, draws);
          match Create(draft.input, now)
          case Failure(_) => (Reply(500, Error("Failed to create booking")), store)
          case Success(b) =>
            match Insert(store, b, savedAt)
            case Failure(_) => (Reply(500, Error("Failed to create booking")), store)
            case Success(saved) => (Reply(201, Created(saved[b.trackingNumber])), saved)
  }

  /** A request with no package type is booked, priced and scheduled as standard. */
  lemma MissingTypeIsStandard(body: BookingBody, weight: real, today: int)
    requires !Truthy(body.packageType)
    ensures EffectiveType(body) == "standard"
    ensures Price(EffectiveType(body), weight) == 10.0 + 2.0 * weight
    ensures EstimatedDeliveryDate(EffectiveType(body), today) == today + 3
  {
  }

  /** A request whose package type the schema does not know is refused by
      validation and stores nothing. */
  lemma UnknownTypeRefused(header: Option<string>, verify: string -> Option<Claims>, body: BookingBody,
                           parseWeight: string -> Option<real>, today: int, now: int, savedAt: int,
                           draws: seq<int>, store: Store)
    requires |draws| == TrackingLength && ValidDraws(draws)
    requires ParsePackageType(EffectiveType(body)).None?
    ensures Post(header, verify, body, parseWeight, today, now, savedAt, draws, store).0.status != 201
  {
  }
}

=== FILE: calculator.dfy ===
/** The shipping calculator's quote: a base price for the service, scaled up by
    weight beyond 5 kg and by volume beyond a threshold, over exact reals. */
module Calculator {

  function Max(a: real, b: real): (r: real)
    ensures r >= a && r >= b && (r == a || r == b)
  {
    if a >= b then a else b
  }

  /** The base price of a service. */
  function BasePrice(service: string): (r: real)
    ensures service == "express" ==> r == 9.99
    ensures service == "premium" ==> r == 19.99
    ensures service != "express" && service != "premium" ==> r == 5.99
    ensures r >= 5.99
  {
    if service == "express" then 9.99
    else if service == "premium" then 19.99
    else 5.99
  }

  /** Length times width times height, divided by 1000. */
  function Volume(length: real, width: real, height: real): real {
    length * width * height / 1000.0
  }

  function WeightMultiplier(weight: real): (r: real)
    ensures r >= 1.0
    ensures weight <= 5.0 ==> r == 1.0
    ensures weight >= 5.0 ==> r == weight / 5.0
  {
    Max(1.0, weight / 5.0)
  }

  function VolumeMultiplier(volume: real): (r: real)
    ensures r >= 1.0
    ensures volume <= 1000.0 ==> r == 1.0
    ensures volume >= 1000.0 ==> r == volume / 1000.0
  {
    Max(1.0, volume / 1000.0)
  }

  /** The estimated price before display rounding. */
  function Quote(service: string, length: real, width: real, height: real, weight: real): (r: real)
    ensures r >= BasePrice(service)
    ensures weight <= 5.0 && length * width * height <= 1000000.0 ==> r == BasePrice(service)
  {
    var m := WeightMultiplier(weight);
    var n := VolumeMultiplier(Volume(length, width, height));
    ProductAtLeastOne(m, n);
    AtLeastFactor(BasePrice(service), m * n);
    BasePrice(service) * m * n
  }

  lemma ProductAtLeastOne(a: real, b: real)
    requires a >= 1.0 && b >= 1.0
    ensures a * b >= 1.0
  {
    assert a * b >= 1.0 * b;
  }

  lemma AtLeastFactor(p: real, m: real)
    requires p >= 0.0 && m >= 1.0
    ensures p * m >= p
  {
    assert p * m - p == p * (m - 1.0);
  }

  lemma ScaleMonotone(c: real, x: real, y: real)
    requires c >= 0.0 && x <= y
    ensures c * x <= c * y
  {
    assert c * y - c * x == c * (y - x);
  }

  lemma ScaleMonotoneRight(c: real, x: real, y: real)
    requires c >= 0.0 && x <= y
    ensures x * c <= y * c
  {
    ScaleMonotone(c, x, y);
    assert x * c == c * x && y * c == c * y;
  }

  lemma WeightMultiplierMonotone(w1: real, w2: real)
    requires w1 <= w2
    ensures WeightMultiplier(w1) <= WeightMultiplier(w2)
  {
  }

  lemma VolumeMultiplierMonotone(v1: real, v2: real)
    requires v1 <= v2
    ensures VolumeMultiplier(v1) <= VolumeMultiplier(v2)
  {
  }

  /** The quote never decreases as the package gets heavier. */
  lemma QuoteMonotoneInWeight(service: string, length: real, width: real, height: real, w1: real, w2: real)
    requires w1 <= w2
    ensures Quote(service, length, width, height, w1) <= Quote(service, length, width, height, w2)
  {
    var b := BasePrice(service);
    var m1, m2 := WeightMultiplier(w1), WeightMultiplier(w2);
    var n := VolumeMultiplier(Volume(length, width, height));
    WeightMultiplierMonotone(w1, w2);
    ScaleMonotone(b, m1, m2);
    calc {
      Quote(service, length, width, height, w1);
    == { QuoteFactors(service, length, width, height, w1); }
      (b * m1) * n;
    <= { ScaleMonotoneRight(n, b * m1, b * m2); }
      (b * m2) * n;
    == { QuoteFactors(service, length, width, height, w2); }
      Quote(service, length, width, height, w2);
    }
  }

  /** A larger volume never lowers the quote. */
  lemma QuoteMonotoneInVolume(service: string, weight: real, l1: real, w1: real, h1: real, l2: real, w2: real, h2: real)
    requires Volume(l1, w1, h1) <= Volume(l2, w2, h2)
    ensures Quote(service, l1, w1, h1, weight) <= Quote(service, l2, w2, h2, weight)
  {
    var k := BasePrice(service) * WeightMultiplier(weight);
    var n1 := VolumeMultiplier(Volume(l1, w1, h1));
    var n2 := VolumeMultiplier(Volume(l2, w2, h2));
    assert k >= 0.0 by { AtLeastFactor(BasePrice(service), WeightMultiplier(weight)); }
    VolumeMultiplierMonotone(Volume(l1, w1, h1), Volume(l2, w2, h2));
    calc {
      Quote(service, l1, w1, h1, weight);
    == { QuoteFactors(service, l1, w1, h1, weight); }
      k * n1;
    <= { ScaleMonotone(k, n1, n2); }
      k * n2;
    == { QuoteFactors(service, l2, w2, h2, weight); }
      Quote(service, l2, w2, h2, weight);
    }
  }

  /** The quote as the weight-scaled base times the volume multiplier. */
  lemma QuoteFactors(service: string, length: real, width: real, height: real, weight: real)
    ensures Quote(service, length, width, height, weight)
      == (BasePrice(service) * WeightMultiplier(weight)) * VolumeMultiplier(Volume(length, width, height))
  {
  }

  /** For positive dimensions, growing any one of them grows the volume. */
  lemma VolumeMonotone(l1: real, w1: real, h1: real, l2: real, w2: real, h2: real)
    requires 0.0 < l1 <= l2 && 0.0 < w1 <= w2 && 0.0 < h1 <= h2
    ensures Volume(l1, w1, h1) <= Volume(l2, w2, h2)
  {
    ScaleMonotone(w1, l1, l2);
    assert l1 * w1 <= l2 * w1;
    ScaleMonotone(l2, w1, w2);
    assert l2 * w1 <= l2 * w2;
    ScaleMonotone(h1, l1 * w1, l2 * w2);
    assert l1 * w1 * h1 <= l2 * w2 * h1;
    ScaleMonotone(l2 * w2, h1, h2);
    assert l2 * w2 * h1 <= l2 * w2 * h2;
  }

  /** For positive dimensions the quote never decreases as the length, the width
      or the height grows. */
  lemma QuoteMonotoneInDimensions(service: string, weight: real, l1: real, w1: real, h1: real, l2: real, w2: real, h2: real)
    requires 0.0 < l1 <= l2 && 0.0 < w1 <= w2 && 0.0 < h1 <= h2
    ensures Quote(service, l1, w1, h1, weight) <= Quote(service, l2, w2, h2, weight)
  {
    VolumeMonotone(l1, w1, h1, l2, w2, h2);
    QuoteMonotoneInVolume(service, weight, l1, w1, h1, l2, w2, h2);
  }

  /** The default form, a 20 cm cube of 1 kg sent standard, quotes the base. */
  lemma DefaultFormQuote()
    ensures Quote("standard", 20.0, 20.0, 20.0, 1.0) == 5.99
  {
  }

  /** A 10 kg express parcel, twice the weight the base covers, quotes twice the base. */
  lemma HeavyParcelQuote()
    ensures Quote("express", 10.0, 10.0, 10.0, 10.0) == 19.98
  {
  }

  /** The delivery time shown next to the quote. */
  function DeliveryLabel(service: string): (r: string)
    ensures service == "standard" ==> r == "3-5 days"
    ensures service == "express" ==> r == "1-2 days"
    ensures service != "standard" && service != "express" ==> r == "Same day"
  {
    if service == "standard" then "3-5 days"
    else if service == "express" then "1-2 days"
    else "Same day"
  }

  /** An entry of the service menu: the value the form keeps, and the name and
      delivery time it shows, as `Name (time)`. */
  datatype ServiceOption = ServiceOption(value: string, name: string, time: string)

  /** The service menu, in the order it is listed. */
  const ServiceMenu: seq<ServiceOption> := [
    ServiceOption("standard", "Standard", "3-5 days"),
    ServiceOption("express", "Express", "1-2 days"),
    ServiceOption("premium", "Premium", "Same day")]

  /** Every menu entry promises the delivery time the quote later shows for it. */
  lemma MenuAgreesWithLabel(i: nat)
    requires i < |ServiceMenu|
    ensures ServiceMenu[i].time == DeliveryLabel(ServiceMenu[i].value)
  {
  }

  /** Down the menu the delivery gets faster and the base price rises. */
  lemma FasterCostsMore(i: nat, j: nat)
    requires i < j < |ServiceMenu|
    ensures BasePrice(ServiceMenu[i].value) < BasePrice(ServiceMenu[j].value)
  {
  }
}

=== FILE: chatbot.dfy ===
/** The support chatbot's reply rule and message history: pricing keywords win,
    then the first matching common question in declaration order, then a fixed
    fallback. Timestamps are parameters. */
module ChatBot {
  import opened Wrappers
  import opened Text

  datatype Sender = User | Bot

  datatype Message = Message(sender: Sender, content: string, timestamp: int)

  /** The greeting shown when the chat opens on an empty history. */
  const InitialBotMessages: seq<string> := [
    "Hello! I'm your shipping assistant. How can I help you today?",
    "I can help you with:",
    "• Pricing information",
    "• Shipping services",
    "• Tracking your package",
    "• General questions about our services"]

  const StandardFeatures: seq<string> := [
    "Up to 5kg weight limit", "Standard delivery (3-5 days)", "Basic tracking", "Email support",
    "Insurance up to $100"]

  const ExpressFeatures: seq<string> := [
    "Up to 10kg weight limit", "Express delivery (1-2 days)", "Advanced tracking", "Priority support",
    "Insurance up to $500", "Free packaging"]

  const PremiumFeatures: seq<string> := [
    "Up to 20kg weight limit", "Same day delivery", "Real-time tracking", "24/7 dedicated support",
    "Insurance up to $2000", "Free packaging", "Bulk shipping discounts", "API access"]

  /** The pricing answer as the reply template lays it out: each plan's
      price, then its features one per line. */
  function PricingTemplate(standard: seq<string>, express: seq<string>, premium: seq<string>): string {
    "We offer three pricing plans:\n1. Standard Plan ($5.99/shipment):\n   - "
      + Join(standard, "\n   - ")
      + "\n2. Express Plan ($9.99/shipment):\n   - "
      + Join(express, "\n   - ")
      + "\n3. Premium Plan ($19.99/shipment):\n   - "
      + Join(premium, "\n   - ")
  }

  /** The pricing answer. */
  function PricingSummary(): string {
    PricingTemplate(StandardFeatures, ExpressFeatures, PremiumFeatures)
  }

  const ShippingCostAnswer: string :=
    "Shipping costs are based on package weight, dimensions, and destination. We offer three plans: Standard ($5.99), Express ($9.99), and Premium ($19.99) per shipment."

  /** The keywords of the common questions, in declaration order. */
  const QuestionKeywords: seq<string> :=
    ["shipping cost", "tracking", "delivery time", "insurance", "payment", "contact"]

  /** The answers of the common questions, in the order of their keywords. */
  const QuestionAnswers: seq<string> := [
    ShippingCostAnswer,
    "You can track your shipment through our website or mobile app using your tracking number. We provide real-time updates on your package's location.",
    "Delivery times vary by plan: Standard (3-5 days), Express (1-2 days), and Premium (same day delivery).",
    "All plans include insurance: Standard ($100), Express ($500), and Premium ($2000) coverage.",
    "We accept all major credit cards, PayPal, and bank transfers. All payments are secure and encrypted.",
    "You can reach our support team through email, phone, or our contact form on the website. Premium plan users get 24/7 dedicated support."]

  const Fallback: string :=
    "I'm not sure I understand. Could you please rephrase your question? I can help you with pricing, shipping services, tracking, or general questions about our services."

  /** The input mentions prices, costs or plans. */
  predicate AsksAboutPricing(input: string) {
    Contains(input, "price") || Contains(input, "cost") || Contains(input, "plan")
  }

  /** The position of the first pair whose keyword the input contains. */
  function FirstMatch(keywords: seq<string>, input: string): (r: Option<nat>)
    ensures r.None? <==> forall i :: 0 <= i < |keywords| ==> !Contains(input, keywords[i])
    ensures r.Some? ==>
      && r.value < |keywords|
      && Contains(input, keywords[r.value])
      && forall j :: 0 <= j < r.value ==> !Contains(input, keywords[j])
  {
    if |keywords| == 0 then None
    else if Contains(input, keywords[0]) then Some(0)
    else
      var r := FirstMatch(keywords[1..], input);
      assert forall i :: 1 <= i < |keywords| ==> keywords[i] == keywords[1..][i - 1];
      if r.Some? then Some(r.value + 1) else None
  }

  /** Which rule of the reply function answers. */
  datatype Answer = PricingAnswer | QuestionAnswer(index: nat) | FallbackAnswer

  /** The rule that answers an already lowercased input: pricing keywords first,
      then the first common question whose keyword occurs, else the fallback. */
  function ChooseAnswer(input: string): (a: Answer)
    ensures a == PricingAnswer <==> AsksAboutPricing(input)
    ensures a.QuestionAnswer? ==>
      && !AsksAboutPricing(input)
      && a.index < |QuestionKeywords|
      && Contains(input, QuestionKeywords[a.index])
      && forall j :: 0 <= j < a.index ==> !Contains(input, QuestionKeywords[j])
    ensures a == FallbackAnswer <==>
      !AsksAboutPricing(input) && forall i :: 0 <= i < |QuestionKeywords| ==> !Contains(input, QuestionKeywords[i])
  {
    if AsksAboutPricing(input) then PricingAnswer
    else
      match FirstMatch(QuestionKeywords, input)
      case Some(i) => QuestionAnswer(i)
      case None => FallbackAnswer
  }

  /** The text of an answer. */
  function AnswerText(a: Answer): string {
    match a
    case PricingAnswer => PricingSummary()
    case QuestionAnswer(i) => if i < |QuestionAnswers| then QuestionAnswers[i] else Fallback
    case FallbackAnswer => Fallback
  }

  /** The reply to an already lowercased input: the pricing summary when a
      pricing keyword occurs, else the answer of the first common question whose
      keyword occurs, else the fallback. */
  function GenerateBotResponse(input: string): (r: string)
    ensures AsksAboutPricing(input) ==> r == PricingSummary()
    ensures ChooseAnswer(input).QuestionAnswer? ==> r == QuestionAnswers[ChooseAnswer(input).index]
    ensures ChooseAnswer(input) == FallbackAnswer ==> r == Fallback
  {
    AnswerText(ChooseAnswer(input))
  }

  /** The shipping-cost entry never answers: any input holding its keyword also
      holds `cost`, which selects the pricing answer first. */
  lemma ShippingCostUnreachable(input: string)
    ensures ChooseAnswer(input) != QuestionAnswer(0)
    ensures QuestionKeywords[0] == "shipping cost"
  {
    assert OccursAt("shipping cost", "cost", 9);
    ContainsAt("shipping cost", "cost", 9);
    if Contains(input, "shipping cost") {
      ContainsTransitive(input, "shipping cost", "cost");
    }
  }

  /** What the user sees in reply to what they typed: the input is lowercased
      before any keyword is looked for. */
  function Reply(input: string): (r: string)
    ensures AsksAboutPricing(Lower(input)) ==> r == PricingSummary()
    ensures ChooseAnswer(Lower(input)).QuestionAnswer? ==> r == QuestionAnswers[ChooseAnswer(Lower(input)).index]
    ensures !AsksAboutPricing(Lower(input))
      && (forall i :: 0 <= i < |QuestionKeywords| ==> !Contains(Lower(input), QuestionKeywords[i]))
      ==> r == Fallback
  {
    GenerateBotResponse(Lower(input))
  }

  /** Matching ignores case: an input and its lowercase form get the same reply. */
  lemma ReplyIgnoresCase(input: string)
    ensures Reply(input) == Reply(Lower(input))
  {
    LowerIdempotent(input);
  }

  /** Sending a message: input that is empty after trimming changes nothing;
      otherwise the user's message and then the bot's reply are appended. */
  function SendMessage(history: seq<Message>, input: string, sentAt: int, repliedAt: int): (r: seq<Message>)
    ensures AllSpace(input) ==> r == history
    ensures !AllSpace(input) ==>
      && |r| == |history| + 2
      && r[..|history|] == history
      && r[|history|] == Message(User, input, sentAt)
      && r[|history| + 1] == Message(Bot, Reply(input), repliedAt)
  {
    if Trim(input) == "" then history
    else
      var sent := Message(User, input, sentAt);
      var answered := Message(Bot, Reply(input), repliedAt);
      assert (history + [sent, answered])[..|history|] == history;
      history + [sent, answered]
  }

  /** Opening the chat seeds the greeting, one bot message per line, when the
      history is empty; otherwise the history stays as it is. Each greeting is
      stamped with its own reading of the clock, `clock[i]`. */
  function OpenChat(history: seq<Message>, clock: seq<int>): (r: seq<Message>)
    requires |clock| == |InitialBotMessages|
    ensures |history| > 0 ==> r == history
    ensures |history| == 0 ==> |r| == |InitialBotMessages| == 6
    ensures |history| == 0 ==> forall i :: 0 <= i < |r| ==> r[i] == Message(Bot, InitialBotMessages[i], clock[i])
  {
    if |history| == 0 then
      seq(|InitialBotMessages|, i requires 0 <= i < |InitialBotMessages| => Message(Bot, InitialBotMessages[i], clock[i]))
    else history
  }

  /** Opening the chat a second time, at any later times, changes nothing. */
  lemma OpenChatIdempotent(history: seq<Message>, c1: seq<int>, c2: seq<int>)
    requires |c1| == |InitialBotMessages| && |c2| == |InitialBotMessages|
    ensures OpenChat(OpenChat(history, c1), c2) == OpenChat(history, c1)
  {
  }
}

=== FILE: contact.dfy ===
/** The contact-form endpoint: its required-field and e-mail-format checks and
    the HTML rewrite of the message. Delivering the mail is not part of this
    model; a request that passes both checks yields the mail to send. */
module Contact {
  import opened Wrappers
  import opened Text

  // ---------------------------------------------------------------------------
  // E-mail shape

  /** A character the pattern's class `[^\s@]` admits. */
  predicate IsPlain(c: char) {
    !IsSpace(c) && c != '@'
  }

  /** A nonempty run of `[^\s@]`, i.e. what `[^\s@]+` matches. */
  predicate PlainRun(s: string) {
    |s| > 0 && forall k :: 0 <= k < |s| ==> IsPlain(s[k])
  }

  /** What the pattern `^[^\s@]+@[^\s@]+\.[^\s@]+$` accepts, written as the
      regular expression reads: a run, `@`, a run, a dot, a run. */
  ghost predicate MatchesEmailPattern(s: string) {
    exists i, k :: 0 < i < k < |s| && s[i] == '@' && s[k] == '.'
      && PlainRun(s[..i]) && PlainRun(s[i + 1..k]) && PlainRun(s[k + 1..])
  }

  /** The position of the first `c` in `s`, or `|s|` when there is none. */
  function IndexOf(s: string, c: char): (i: nat)
    ensures i <= |s|
    ensures c !in s[..i]
    ensures i < |s| ==> s[i] == c
  {
    if |s| == 0 then 0
    else if s[0] == c then 0
    else
      var j := IndexOf(s[1..], c);
      assert s[..j + 1] == [s[0]] + s[1..][..j];
      1 + j
  }

  /** A dot strictly inside `d`: some character on each side. */
  predicate HasInnerDot(d: string) {
    exists k :: 0 < k < |d| - 1 && d[k] == '.'
  }

  /** The e-mail check as an algorithm: split at the first `@`; the part before
      it must be a nonempty plain run, the part after it a plain run with a dot
      strictly inside. */
  function IsValidEmail(s: string): (ok: bool)
    ensures ok ==> |s| >= 5
    ensures ok ==> forall k :: 0 <= k < |s| ==> !IsSpace(s[k])
    ensures ok ==> forall k :: 0 <= k < |s| && s[k] == '@' ==> k == IndexOf(s, '@')
  {
    var at := IndexOf(s, '@');
    var ok := at < |s| && PlainRun(s[..at]) && PlainRun(s[at + 1..]) && HasInnerDot(s[at + 1..]);
    assert ok ==> forall k :: 0 <= k < |s| ==> !IsSpace(s[k]) by {
      if ok { PlainAroundAtHasNoSpace(s, at); }
    }
    assert ok ==> forall k :: at < k < |s| ==> s[k] != '@' by {
      if ok {
        PlainRunHasNoAt(s[at + 1..]);
        assert forall k :: at < k < |s| ==> s[k] == s[at + 1..][k - at - 1];
      }
    }
    ok
  }

  /** A nonempty slice of a plain run is a plain run. */
  lemma PlainRunSlice(s: string, i: int, j: int)
    requires PlainRun(s) && 0 <= i < j <= |s|
    ensures PlainRun(s[i..j])
  {
    forall k | 0 <= k < j - i
      ensures IsPlain(s[i..j][k])
    {
      assert s[i..j][k] == s[i + k];
    }
  }

  /** Joining plain runs around a dot gives a plain run. */
  lemma PlainRunDot(a: string, b: string)
    requires PlainRun(a) && PlainRun(b)
    ensures PlainRun(a + "." + b)
  {
    var d := a + "." + b;
    forall k | 0 <= k < |d|
      ensures IsPlain(d[k])
    {
      if k < |a| {
        assert d[k] == a[k];
      } else if k > |a| {
        assert d[k] == b[k - |a| - 1];
      }
    }
  }

  /** Whatever the algorithm accepts, the pattern matches. */
  lemma EmailCheckSound(s: string)
    requires IsValidEmail(s)
    ensures MatchesEmailPattern(s)
  {
    var at := IndexOf(s, '@');
    var d := s[at + 1..];
    var k :| 0 < k < |d| - 1 && d[k] == '.';
    var K := at + 1 + k;
    assert s[K] == '.';
    assert s[at + 1..K] == d[..k];
    assert s[K + 1..] == d[k + 1..];
    PlainRunSlice(d, 0, k);
    PlainRunSlice(d, k + 1, |d|);
  }

  /** The first occurrence is found wherever it is. */
  lemma {:induction false} IndexOfFirst(s: string, c: char, i: nat)
    requires i < |s| && s[i] == c && c !in s[..i]
    ensures IndexOf(s, c) == i
    decreases i
  {
    if i > 0 {
      assert s[0] == s[..i][0];
      assert s[1..][..i - 1] == s[1..i];
      assert forall j :: 0 <= j < i - 1 ==> s[1..i][j] == s[..i][j + 1];
      IndexOfFirst(s[1..], c, i - 1);
    }
  }

  /** A plain run holds no `@`. */
  lemma PlainRunHasNoAt(s: string)
    requires PlainRun(s)
    ensures '@' !in s
  {
  }

  /** The algorithm accepts a string split as the pattern reads it. */
  lemma EmailCheckCompleteAt(s: string, i: int, k: int)
    requires 0 < i < k < |s| && s[i] == '@' && s[k] == '.'
    requires PlainRun(s[..i]) && PlainRun(s[i + 1..k]) && PlainRun(s[k + 1..])
    ensures IsValidEmail(s)
  {
    PlainRunHasNoAt(s[..i]);
    IndexOfFirst(s, '@', i);
    var d := s[i + 1..];
    assert d == s[i + 1..k] + "." + s[k + 1..];
    PlainRunDot(s[i + 1..k], s[k + 1..]);
    assert d[k - i - 1] == '.';
  }

  /** Whatever the pattern matches, the algorithm accepts. */
  lemma EmailCheckComplete(s: string)
    requires MatchesEmailPattern(s)
    ensures IsValidEmail(s)
  {
    var i, k :| 0 < i < k < |s| && s[i] == '@' && s[k] == '.'
      && PlainRun(s[..i]) && PlainRun(s[i + 1..k]) && PlainRun(s[k + 1..]);
    EmailCheckCompleteAt(s, i, k);
  }

  /** The algorithm accepts exactly what the pattern matches. */
  lemma EmailCheckMatchesPattern(s: string)
    ensures IsValidEmail(s) <==> MatchesEmailPattern(s)
  {
    if IsValidEmail(s) {
      EmailCheckSound(s);
    }
    if MatchesEmailPattern(s) {
      EmailCheckComplete(s);
    }
  }

  /** Two plain runs around an `@` hold no whitespace. */
  lemma PlainAroundAtHasNoSpace(s: string, at: nat)
    requires at < |s| && s[at] == '@'
    requires PlainRun(s[..at]) && PlainRun(s[at + 1..])
    ensures forall k :: 0 <= k < |s| ==> !IsSpace(s[k])
  {
    forall k | 0 <= k < |s|
      ensures !IsSpace(s[k])
    {
      if k < at {
        assert s[k] == s[..at][k];
      } else if k > at {
        assert s[k] == s[at + 1..][k - at - 1];
      }
    }
  }

  /** Consequences of the pattern: no whitespace anywhere, exactly one `@`, a
      nonempty local part, and a dot with a character on each side after it. */
  lemma ValidEmailShape(s: string)
    requires IsValidEmail(s)
    ensures forall k :: 0 <= k < |s| ==> !IsSpace(s[k])
    ensures IndexOf(s, '@') > 0
    ensures '@' !in s[IndexOf(s, '@') + 1..]
    ensures HasInnerDot(s[IndexOf(s, '@') + 1..])
  {
    var at := IndexOf(s, '@');
    PlainAroundAtHasNoSpace(s, at);
    PlainRunHasNoAt(s[at + 1..]);
  }

  /** A plain address is accepted. */
  lemma EmailAccepted()
    ensures IsValidEmail("a@b.c")
  {
    var s := "a@b.c";
    assert IndexOf(s, '@') == 1;
    assert s[..1] == "a";
    assert s[2..] == "b.c";
    assert "b.c"[1] == '.';
  }

  /** A domain without a dot is refused. */
  lemma EmailWithoutDotRefused()
    ensures !IsValidEmail("a@b")
  {
    var s := "a@b";
    assert IndexOf(s, '@') == 1;
    assert s[2..] == "b";
  }

  /** A space in the local part is refused. */
  lemma EmailWithSpaceRefused()
    ensures !IsValidEmail("a b@c.d")
  {
    var s := "a b@c.d";
    assert IndexOf(s, '@') == 3;
    assert s[..3][1] == ' ';
  }

  /** A second `@` is refused. */
  lemma EmailWithTwoAtsRefused()
    ensures !IsValidEmail("a@@b.c")
  {
    var s := "a@@b.c";
    assert IndexOf(s, '@') == 1;
    assert s[2..][0] == '@';
  }

  /** A dot right after the `@` is refused. */
  lemma EmailDotFirstRefused()
    ensures !IsValidEmail("a@.c")
  {
    var s := "a@.c";
    assert IndexOf(s, '@') == 1;
    assert s[2..] == ".c";
  }

  // ---------------------------------------------------------------------------
  // Message rewrite

  /** The number of times `c` occurs in `s`. */
  function Count(s: string, c: char): nat {
    if |s| == 0 then 0 else (if s[0] == c then 1 else 0) + Count(s[1..], c)
  }

  /** The message as the mail body carries it: every line feed becomes a `<br>` tag. */
  function BreakLines(s: string): (r: string)
    ensures '\n' !in r
    ensures |r| == |s| + 3 * Count(s, '\n')
  {
    if |s| == 0 then ""
    else (if s[0] == '\n' then "<br>" else [s[0]]) + BreakLines(s[1..])
  }

  /** The rewrite works piecewise: the rewrite of a concatenation is the
      concatenation of the rewrites. */
  lemma {:induction false} BreakLinesAppend(a: string, b: string)
    ensures BreakLines(a + b) == BreakLines(a) + BreakLines(b)
    decreases |a|
  {
    if |a| > 0 {
      assert (a + b)[1..] == a[1..] + b;
      BreakLinesAppend(a[1..], b);
    } else {
      assert a + b == b;
    }
  }

  /** Text without line feeds is left alone. */
  lemma {:induction false} BreakLinesNoNewline(s: string)
    requires '\n' !in s
    ensures BreakLines(s) == s
    decreases |s|
  {
    if |s| > 0 {
      BreakLinesNoNewline(s[1..]);
      assert [s[0]] + s[1..] == s;
    }
  }

  /** Turns each `<br>` tag back into a line feed. */
  function UnbreakLines(s: string): string
    decreases |s|
  {
    if StartsWith(s, "<br>") then "\n" + UnbreakLines(s[4..])
    else if |s| == 0 then ""
    else [s[0]] + UnbreakLines(s[1..])
  }

  /** For a message that holds no `<`, the rewrite loses nothing: every other
      character keeps its place and order, and the line feeds can be recovered. */
  lemma {:induction false} UnbreakBreakLines(s: string)
    requires '<' !in s
    ensures UnbreakLines(BreakLines(s)) == s
    decreases |s|
  {
    if |s| > 0 {
      UnbreakBreakLines(s[1..]);
      var r := BreakLines(s);
      if s[0] == '\n' {
        assert r == "<br>" + BreakLines(s[1..]);
        assert StartsWith(r, "<br>");
        assert r[4..] == BreakLines(s[1..]);
      } else {
        assert r == [s[0]] + BreakLines(s[1..]);
        assert r[0] != '<';
        assert r[1..] == BreakLines(s[1..]);
      }
      assert [s[0]] + s[1..] == s;
    }
  }

  // ---------------------------------------------------------------------------
  // Handler

  /** The JSON body of a contact request. */
  datatype ContactBody = ContactBody(name: Option<string>, email: Option<string>, subject: Option<string>, message: Option<string>)

  /** The mail the handler composes for the site's own mailbox. */
  datatype Mail = Mail(replyTo: string, subject: string, name: string, messageHtml: string)

  datatype ContactOutcome =
    | Rejected(status: int, error: string)
    | Send(mail: Mail)

  predicate HasAllFields(body: ContactBody) {
    Truthy(body.name) && Truthy(body.email) && Truthy(body.subject) && Truthy(body.message)
  }

  /** POST: the presence check comes first, then the format check; only a
      request that passes both composes a mail. */
  function HandleContact(body: ContactBody): (r: ContactOutcome)
    ensures r == Rejected(400, "All fields are required") <==> !HasAllFields(body)
    ensures r == Rejected(400, "Invalid email format") <==> HasAllFields(body) && !IsValidEmail(body.email.value)
    ensures r.Rejected? ==> r.status == 400
    ensures r.Send? <==> HasAllFields(body) && IsValidEmail(body.email.value)
    ensures r.Send? ==>
      && r.mail.replyTo == body.email.value
      && r.mail.subject == "Contact Form: " + body.subject.value
      && r.mail.name == body.name.value
      && r.mail.messageHtml == BreakLines(body.message.value)
      && '\n' !in r.mail.messageHtml
      && (('<' !in body.message.value) ==> UnbreakLines(r.mail.messageHtml) == body.message.value)
  {
    if !HasAllFields(body) then Rejected(400, "All fields are required")
    else if !IsValidEmail(body.email.value) then Rejected(400, "Invalid email format")
    else
      var m := body.message.value;
      assert '<' !in m ==> UnbreakLines(BreakLines(m)) == m by {
        if '<' !in m { UnbreakBreakLines(m); }
      }
      Send(Mail(body.email.value, "Contact Form: " + body.subject.value, body.name.value, BreakLines(m)))
  }

  /** The handler sends mail exactly when every field is filled in and the email
      has the shape of the handler's pattern: a run, `@`, a run, a dot, a run,
      where no run contains whitespace or `@`. */
  lemma HandleContactSendsIffPattern(body: ContactBody)
    ensures HandleContact(body).Send? <==> HasAllFields(body) && MatchesEmailPattern(body.email.value)
  {
    if body.email.Some? {
      EmailCheckMatchesPattern(body.email.value);
    }
  }
}

=== FILE: customer_dashboard.dfy ===
/** The customer dashboard's views of the bookings it fetched: the status
    counters, the status badge, the recent-activity list and the booking label.
    Statuses arrive as the strings the API serialised. */
module CustomerDashboard {
  import BookingSchema

  /** The fields of a fetched booking the dashboard reads. */
  datatype BookingView = BookingView(id: string, status: string, packageType: string, createdAt: int)

  /** The number of bookings whose status is exactly the given string. */
  function CountStatus(bs: seq<BookingView>, status: string): (r: nat)
    ensures r <= |bs|
    ensures r == 0 <==> forall i :: 0 <= i < |bs| ==> bs[i].status != status
    ensures r == |bs| <==> forall i :: 0 <= i < |bs| ==> bs[i].status == status
  {
    if |bs| == 0 then 0
    else
      var rest := CountStatus(bs[1..], status);
      assert forall i :: 1 <= i < |bs| ==> bs[i] == bs[1..][i - 1];
      (if bs[0].status == status then 1 else 0) + rest
  }

  /** The "Pending Bookings" card. */
  function PendingCount(bs: seq<BookingView>): nat {
    CountStatus(bs, "pending")
  }

  /** The "Completed Deliveries" card. */
  function CompletedCount(bs: seq<BookingView>): nat {
    CountStatus(bs, "delivered")
  }

  /** The "Active Deliveries" card, which looks for a hyphen. */
  function ActiveCount(bs: seq<BookingView>): nat {
    CountStatus(bs, "in-transit")
  }

  /** Counting over a concatenation adds the counts of the two parts. */
  lemma {:induction false} CountAppend(a: seq<BookingView>, b: seq<BookingView>, status: string)
    ensures CountStatus(a + b, status) == CountStatus(a, status) + CountStatus(b, status)
    decreases |a|
  {
    if |a| > 0 {
      assert (a + b)[0] == a[0];
      assert (a + b)[1..] == a[1..] + b;
      CountAppend(a[1..], b, status);
    } else {
      assert a + b == b;
    }
  }

  /** Three counters for three distinct statuses never count a booking twice,
      so together they never exceed the number of bookings. */
  lemma {:induction false} DistinctCountsWithinTotal(bs: seq<BookingView>, s1: string, s2: string, s3: string)
    requires s1 != s2 && s2 != s3 && s1 != s3
    ensures CountStatus(bs, s1) + CountStatus(bs, s2) + CountStatus(bs, s3) <= |bs|
    decreases |bs|
  {
    if |bs| > 0 {
      DistinctCountsWithinTotal(bs[1..], s1, s2, s3);
    }
  }

  /** The three cards together never exceed the "Total Bookings" card. */
  lemma CountersWithinTotal(bs: seq<BookingView>)
    ensures PendingCount(bs) + CompletedCount(bs) + ActiveCount(bs) <= |bs|
  {
    DistinctCountsWithinTotal(bs, "pending", "delivered", "in-transit");
  }

  /** Every booking carries a status the schema admits. */
  predicate SchemaStatuses(bs: seq<BookingView>) {
    forall i :: 0 <= i < |bs| ==> BookingSchema.ParseStatus(bs[i].status).Some?
  }

  /** The schema spells the in-transit status with an underscore, so the
      "Active Deliveries" card shows 0 for every list the API can return. */
  lemma ActiveAlwaysZero(bs: seq<BookingView>)
    requires SchemaStatuses(bs)
    ensures ActiveCount(bs) == 0
  {
    forall i | 0 <= i < |bs|
      ensures bs[i].status != "in-transit"
    {
      var st := BookingSchema.ParseStatus(bs[i].status).value;
      assert BookingSchema.StatusName(st) == bs[i].status;
    }
  }

  /** The badge text for a status string. */
  function Badge(status: string): (r: string)
    ensures r == "Delivered" <==> status == "delivered"
    ensures r == "In Transit" <==> status == "in-transit"
    ensures r == "Pending" <==> status != "delivered" && status != "in-transit"
  {
    if status == "delivered" then "Delivered"
    else if status == "in-transit" then "In Transit"
    else "Pending"
  }

  /** For the statuses the schema admits only delivery shows as such: picked-up
      and in-transit bookings both wear the "Pending" badge. */
  lemma SchemaBadges(st: BookingSchema.Status)
    ensures Badge(BookingSchema.StatusName(st)) == (if st == BookingSchema.Delivered then "Delivered" else "Pending")
    ensures Badge(BookingSchema.StatusName(st)) != "In Transit"
  {
  }

  /** A booking the "Completed Deliveries" card counts wears the "Delivered"
      badge, and one the "Active Deliveries" card counts wears "In Transit". */
  lemma BadgeAgreesWithCounters(b: BookingView)
    ensures CompletedCount([b]) == 1 <==> Badge(b.status) == "Delivered"
    ensures ActiveCount([b]) == 1 <==> Badge(b.status) == "In Transit"
  {
  }

  /** The recent-activity list: the first three bookings, or all when fewer. */
  function RecentActivity(bs: seq<BookingView>): (r: seq<BookingView>)
    ensures |r| == if |bs| < 3 then |bs| else 3
    ensures forall i :: 0 <= i < |r| ==> r[i] == bs[i]
  {
    if |bs| < 3 then bs else bs[..3]
  }

  /** The last six characters of the id, or the whole id when it is shorter. */
  function LastSix(id: string): (t: string)
    ensures |t| == if |id| < 6 then |id| else 6
    ensures id == id[..|id| - |t|] + t
  {
    if |id| < 6 then id else id[|id| - 6..]
  }

  /** The heading of a booking's card. */
  function BookingLabel(id: string): (r: string)
    ensures |r| == 9 + (if |id| < 6 then |id| else 6)
    ensures r[..9] == "Booking #"
    ensures id == id[..|id| - (|r| - 9)] + r[9..]
  {
    var t := LastSix(id);
    assert ("Booking #" + t)[9..] == t;
    "Booking #" + t
  }

  /** Ids that share their last six characters get the same label. */
  lemma SameTailSameLabel(a: string, b: string)
    requires |a| >= 6 && |b| >= 6 && a[|a| - 6..] == b[|b| - 6..]
    ensures BookingLabel(a) == BookingLabel(b)
  {
  }
}

=== FILE: knowledge.dfy ===
/** The knowledge-base search: a category stays listed when its title or one of
    its article titles contains the query, compared without regard to case. */
module Knowledge {
  import opened Text
  import opened Seqs

  datatype Category = Category(title: string, articles: seq<string>)

  /** The six categories of the knowledge base, in display order. */
  const Categories: seq<Category> := [
    Category("Getting Started", ["How to create an account", "Understanding shipping rates",
      "Setting up your first shipment", "Account verification process"]),
    Category("Shipping Services", ["Available shipping methods", "International shipping guide",
      "Express shipping options", "Bulk shipping discounts"]),
    Category("Tracking & Delivery", ["How to track your package", "Delivery time estimates",
      "Handling delivery issues", "Signature requirements"]),
    Category("Billing & Payments", ["Accepted payment methods", "Understanding shipping costs",
      "Billing cycle information", "Refund policy"]),
    Category("Security & Safety", ["Package insurance options", "Secure packaging guidelines",
      "Handling fragile items", "Security measures"]),
    Category("Support", ["Contacting customer support", "FAQ", "Live chat assistance", "Email support"])]

  /** The lowercased title, or some lowercased article, contains the lowercased query. */
  predicate Matches(c: Category, query: string) {
    || Contains(Lower(c.title), Lower(query))
    || exists i :: 0 <= i < |c.articles| && Contains(Lower(c.articles[i]), Lower(query))
  }

  /** The categories that match the query, in their original order: every
      matching category as often as it is listed, and nothing else. */
  function FilterCategories(cs: seq<Category>, query: string): (r: seq<Category>)
    ensures IsSubsequence(r, cs)
    ensures forall c :: c in r <==> c in cs && Matches(c, query)
    ensures forall c :: multiset(r)[c] == if Matches(c, query) then multiset(cs)[c] else 0
  {
    if |cs| == 0 then []
    else
      var rest := FilterCategories(cs[1..], query);
      assert cs == [cs[0]] + cs[1..];
      assert forall c :: c in cs <==> c == cs[0] || c in cs[1..];
      if Matches(cs[0], query) then
        assert ([cs[0]] + rest)[1..] == rest;
        [cs[0]] + rest
      else rest
  }

  /** An empty query keeps every category. */
  lemma {:induction false} EmptyQueryKeepsAll(cs: seq<Category>)
    ensures FilterCategories(cs, "") == cs
    decreases |cs|
  {
    if |cs| > 0 {
      ContainsEmpty(Lower(cs[0].title));
      assert Lower("") == "";
      EmptyQueryKeepsAll(cs[1..]);
      assert [cs[0]] + cs[1..] == cs;
    }
  }

  /** An empty query shows all six categories of the knowledge base. */
  lemma EmptyQueryShowsSix()
    ensures |FilterCategories(Categories, "")| == 6
  {
    EmptyQueryKeepsAll(Categories);
  }

  /** The query's case makes no difference. */
  lemma {:induction false} FilterIgnoresCase(cs: seq<Category>, query: string)
    ensures FilterCategories(cs, query) == FilterCategories(cs, Lower(query))
    decreases |cs|
  {
    LowerIdempotent(query);
    if |cs| > 0 {
      FilterIgnoresCase(cs[1..], query);
    }
  }

  /** A category that matches a query matches every part of it. */
  lemma MatchesNarrower(c: Category, q1: string, q2: string)
    requires Contains(q2, q1) && Matches(c, q2)
    ensures Matches(c, q1)
  {
    LowerContains(q2, q1);
    if Contains(Lower(c.title), Lower(q2)) {
      ContainsTransitive(Lower(c.title), Lower(q2), Lower(q1));
    } else {
      var i :| 0 <= i < |c.articles| && Contains(Lower(c.articles[i]), Lower(q2));
      ContainsTransitive(Lower(c.articles[i]), Lower(q2), Lower(q1));
    }
  }

  /** Typing more narrows the list: extending the query keeps a subsequence of
      what the shorter query showed. */
  lemma {:induction false} LongerQueryNarrows(cs: seq<Category>, q1: string, q2: string)
    requires Contains(q2, q1)
    ensures IsSubsequence(FilterCategories(cs, q2), FilterCategories(cs, q1))
    decreases |cs|
  {
    if |cs| > 0 {
      LongerQueryNarrows(cs[1..], q1, q2);
      var r1 := FilterCategories(cs[1..], q1);
      var r2 := FilterCategories(cs[1..], q2);
      if Matches(cs[0], q2) {
        MatchesNarrower(cs[0], q1, q2);
        assert ([cs[0]] + r2)[1..] == r2;
        assert ([cs[0]] + r1)[1..] == r1;
      } else if Matches(cs[0], q1) {
        assert ([cs[0]] + r1)[1..] == r1;
      }
    }
  }
}

=== FILE: middleware.dfy ===
/** The request middleware: requests to public paths pass untouched; any other
    request needs a token, which is verified, and the verified payload is
    forwarded in a `user` header. The verifier is a parameter that returns the
    payload's JSON text, or None when verification throws. */
module Middleware {
  import opened Wrappers
  import opened Text
  import Auth

  /** The path prefixes that need no authentication, in the order they are listed. */
  const PublicPaths: seq<string> := [
    "/", "/login", "/signup", "/api/auth/login", "/api/auth/signup", "/api/test",
    "/book", "/track", "/pricing", "/about", "/contact"]

  /** Some listed prefix starts the path. */
  predicate IsPublicPath(path: string) {
    exists i :: 0 <= i < |PublicPaths| && StartsWith(path, PublicPaths[i])
  }

  /** Since `/` is listed and every listed prefix begins with `/`, a path is
      public exactly when it begins with `/`. */
  lemma PublicIffRooted(path: string)
    ensures IsPublicPath(path) <==> StartsWith(path, "/")
  {
    if StartsWith(path, "/") {
      assert StartsWith(path, PublicPaths[0]);
    }
    if IsPublicPath(path) {
      var i :| 0 <= i < |PublicPaths| && StartsWith(path, PublicPaths[i]);
      assert PublicPaths[i][0] == '/';
      assert path[0] == PublicPaths[i][0];
    }
  }

  /** A request as the middleware sees it; header names are lower-case. */
  datatype Request = Request(pathname: string, headers: map<string, string>)

  datatype Outcome =
    | Next(headers: map<string, string>)
    | Reject(status: int, error: string)

  /** The `authorization` header, if sent. */
  function Authorization(req: Request): Option<string> {
    if "authorization" in req.headers then Some(req.headers["authorization"]) else None
  }

  /** The token the middleware reads: the second space-separated word of the
      header, whatever the first is; absent when there is no second word. */
  function HeaderToken(header: Option<string>): (token: Option<string>)
    ensures token.Some? <==> header.Some? && |Split(header.value, ' ')| >= 2
    ensures token.Some? ==> token.value == Split(header.value, ' ')[1]
    ensures token.Some? ==> header.Some? && ' ' !in token.value
    ensures token.Some? ==> exists w :: ' ' !in w && StartsWith(header.value, w + " " + token.value)
  {
    if header.None? then None
    else
      var parts := Split(header.value, ' ');
      if |parts| < 2 then None
      else
        var h := header.value;
        var w := parts[0];
        var tail := parts[1..];
        assert h == w + " " + Join(tail, " ");
        assert Join(tail, " ") == tail[0] + (if |tail| == 1 then "" else " " + Join(tail[1..], " "));
        assert StartsWith(h, w + " " + tail[0]);
        Some(parts[1])
  }

  /** Unlike the library's extraction, the middleware accepts any first word:
      a header that is not a bearer header still yields its second word. */
  lemma HeaderTokenAnyScheme(scheme: string, token: string)
    requires ' ' !in scheme && ' ' !in token
    ensures HeaderToken(Some(scheme + " " + token)) == Some(token)
  {
    assert scheme + " " + token == scheme + [' '] + token;
    SplitPrefix(scheme, ' ', token);
    SplitNoSep(token, ' ');
  }

  /** Whenever the library's extraction finds a token, the middleware reads the
      same one. */
  lemma HeaderTokenAgreesWithAuth(header: Option<string>)
    requires Auth.GetTokenFromHeaders(header).Some?
    ensures HeaderToken(header) == Auth.GetTokenFromHeaders(header)
  {
  }

  /** The middleware's decision for one request. */
  function Decide(req: Request, verify: string -> Option<string>): (r: Outcome)
    ensures IsPublicPath(req.pathname) ==> r == Next(req.headers)
    ensures r.Next? <==>
      || IsPublicPath(req.pathname)
      || StartsWith(req.pathname, "/dashboard")
      || (Truthy(HeaderToken(Authorization(req))) && verify(HeaderToken(Authorization(req)).value).Some?)
    ensures r.Reject? ==> r.status == 401 && !IsPublicPath(req.pathname)
    ensures r.Reject? ==> r.error in {"Authentication required", "Invalid token"}
    ensures r == Reject(401, "Authentication required") <==>
      !IsPublicPath(req.pathname) && !StartsWith(req.pathname, "/dashboard") && !Truthy(HeaderToken(Authorization(req)))
    ensures r == Reject(401, "Invalid token") <==>
      && !IsPublicPath(req.pathname) && !StartsWith(req.pathname, "/dashboard")
      && Truthy(HeaderToken(Authorization(req)))
      && verify(HeaderToken(Authorization(req)).value).None?
    ensures r.Next? && !IsPublicPath(req.pathname) && !StartsWith(req.pathname, "/dashboard") ==>
      var token := HeaderToken(Authorization(req));
      && Truthy(token)
      && verify(token.value).Some?
      && r.headers == req.headers["user" := verify(token.value).value]
  {
    var token := HeaderToken(Authorization(req));
    if IsPublicPath(req.pathname) then Next(req.headers)
    else if StartsWith(req.pathname, "/dashboard") then Next(req.headers)
    else if !Truthy(token) then Reject(401, "Authentication required")
    else
      match verify(token.value)
      case None => Reject(401, "Invalid token")
      case Some(payload) => Next(req.headers["user" := payload])
  }

  /** Every path that begins with `/` passes with its headers untouched, and the
      token is never looked at: the verifier makes no difference. */
  lemma RootedPathsPass(req: Request, v1: string -> Option<string>, v2: string -> Option<string>)
    requires StartsWith(req.pathname, "/")
    ensures Decide(req, v1) == Decide(req, v2) == Next(req.headers)
  {
    PublicIffRooted(req.pathname);
  }

  /** The dashboard exemption never decides anything: every dashboard path is
      already public. */
  lemma DashboardAlreadyPublic(path: string)
    requires StartsWith(path, "/dashboard")
    ensures IsPublicPath(path)
  {
    assert path[0] == '/';
    PublicIffRooted(path);
  }

  /** A verified request keeps every header it came with, apart from `user`. */
  lemma VerifiedKeepsHeaders(req: Request, verify: string -> Option<string>, name: string)
    requires Decide(req, verify).Next?
    requires name in req.headers && name != "user"
    ensures name in Decide(req, verify).headers
    ensures Decide(req, verify).headers[name] == req.headers[name]
  {
  }
}

=== FILE: seqs.dfy ===
/** Order-preserving selection over sequences of records, shared by the list
    filters of the knowledge base and the admin dashboard. */
module Seqs {

  /** `a` is `b` with some elements left out and the rest in their original order. */
  predicate IsSubsequence<T(==)>(a: seq<T>, b: seq<T>)
    decreases |b|
  {
    |a| == 0 || (|b| > 0 && ((a[0] == b[0] && IsSubsequence(a[1..], b[1..])) || IsSubsequence(a, b[1..])))
  }

  /** Every sequence is a subsequence of itself. */
  lemma {:induction false} SubsequenceReflexive<T>(a: seq<T>)
    ensures IsSubsequence(a, a)
    decreases |a|
  {
    if |a| > 0 {
      SubsequenceReflexive(a[1..]);
    }
  }

  /** A subsequence holds no element that the whole lacks. */
  lemma {:induction false} SubsequenceMembers<T>(a: seq<T>, b: seq<T>, x: T)
    requires IsSubsequence(a, b) && x in a
    ensures x in b
    decreases |b|
  {
    if a[0] == b[0] && IsSubsequence(a[1..], b[1..]) {
      if x != a[0] {
        assert x in a[1..];
        SubsequenceMembers(a[1..], b[1..], x);
      }
    } else {
      SubsequenceMembers(a, b[1..], x);
    }
  }
}

=== FILE: text.dfy ===
/** The JavaScript string operations the application relies on, over `seq<char>`:
    `split`, `join`, `trim`, `includes`, `startsWith`, `toLowerCase`, and the
    truthiness test that `!value` applies to an optional string field. */
module Text {
  import opened Wrappers

  /** The ECMAScript WhiteSpace and LineTerminator code points: exactly what the
      regular-expression class `\s` matches and what `String.prototype.trim` strips. */
  predicate IsSpace(c: char) {
    || c == '\t' || c == '\n' || c == '\U{000B}' || c == '\U{000C}' || c == '\r' || c == ' '
    || c == '\U{00A0}' || c == '\U{1680}' || ('\U{2000}' <= c <= '\U{200A}')
    || c == '\U{2028}' || c == '\U{2029}' || c == '\U{202F}' || c == '\U{205F}'
    || c == '\U{3000}' || c == '\U{FEFF}'
  }

  predicate AllSpace(s: string) {
    forall k :: 0 <= k < |s| ==> IsSpace(s[k])
  }

  /** JavaScript truthiness of an optional string: present and nonempty
      (`!x` holds exactly for `undefined`, `null` and `''`). */
  predicate Truthy(o: Option<string>) {
    o.Some? && o.value != ""
  }

  /** `s.startsWith(prefix)`. */
  predicate StartsWith(s: string, prefix: string) {
    |prefix| <= |s| && s[..|prefix|] == prefix
  }

  /** `s.includes(sub)`: `sub` starts at some position of `s`. */
  predicate Contains(s: string, sub: string)
    decreases |s|
  {
    StartsWith(s, sub) || (|s| > 0 && Contains(s[1..], sub))
  }

  /** `sub` occurs in `s` starting at index `i`. */
  ghost predicate OccursAt(s: string, sub: string, i: int) {
    0 <= i && i + |sub| <= |s| && s[i..i + |sub|] == sub
  }

  /** `Contains` agrees with the positional definition of a substring. */
  lemma {:induction false} ContainsIff(s: string, sub: string)
    ensures Contains(s, sub) <==> exists i :: OccursAt(s, sub, i)
    decreases |s|
  {
    if Contains(s, sub) {
      if StartsWith(s, sub) {
        assert OccursAt(s, sub, 0);
      } else {
        ContainsIff(s[1..], sub);
        var i :| OccursAt(s[1..], sub, i);
        assert s[1..][i..i + |sub|] == s[i + 1..i + 1 + |sub|];
        assert OccursAt(s, sub, i + 1);
      }
    }
    if exists i :: OccursAt(s, sub, i) {
      var i :| OccursAt(s, sub, i);
      if i == 0 {
        assert StartsWith(s, sub);
      } else {
        assert s[1..][i - 1..i - 1 + |sub|] == s[i..i + |sub|];
        assert OccursAt(s[1..], sub, i - 1);
        ContainsIff(s[1..], sub);
      }
    }
  }

  /** Every string contains the empty string. */
  lemma ContainsEmpty(s: string)
    ensures Contains(s, "")
  {
    assert StartsWith(s, "");
  }

  /** An occurrence at a known index is a containment. */
  lemma ContainsAt(s: string, sub: string, i: int)
    requires OccursAt(s, sub, i)
    ensures Contains(s, sub)
  {
    ContainsIff(s, sub);
  }

  /** Containment is transitive: a string that contains `b` contains everything `b` contains. */
  lemma ContainsTransitive(a: string, b: string, c: string)
    requires Contains(a, b) && Contains(b, c)
    ensures Contains(a, c)
  {
    ContainsIff(a, b);
    ContainsIff(b, c);
    var i :| OccursAt(a, b, i);
    var j :| OccursAt(b, c, j);
    assert b == a[i..i + |b|];
    forall k | 0 <= k < |c|
      ensures a[i + j + k] == c[k]
    {
      assert c[k] == b[j + k];
    }
    assert a[i + j..i + j + |c|] == c;
    ContainsAt(a, c, i + j);
  }

  /** ASCII lowercasing of one character, as `toLowerCase` does on ASCII letters. */
  function LowerChar(c: char): char {
    if 'A' <= c <= 'Z' then (c as int + 32) as char else c
  }

  /** `s.toLowerCase()`, on ASCII letters. */
  function Lower(s: string): (r: string)
    ensures |r| == |s|
    ensures forall i :: 0 <= i < |s| ==> r[i] == LowerChar(s[i])
  {
    seq(|s|, i requires 0 <= i < |s| => LowerChar(s[i]))
  }

  /** Lowercasing twice is lowercasing once. */
  lemma LowerIdempotent(s: string)
    ensures Lower(Lower(s)) == Lower(s)
  {
  }

  /** Lowercasing preserves containment. */
  lemma LowerContains(a: string, b: string)
    requires Contains(a, b)
    ensures Contains(Lower(a), Lower(b))
  {
    ContainsIff(a, b);
    var i :| OccursAt(a, b, i);
    assert Lower(a)[i..i + |b|] == Lower(b);
    ContainsAt(Lower(a), Lower(b), i);
  }

  /** The number of whitespace characters at the start of `s`. */
  function LeadingSpace(s: string): (n: nat)
    ensures n <= |s|
    ensures forall k :: 0 <= k < n ==> IsSpace(s[k])
    ensures n == |s| || !IsSpace(s[n])
  {
    if |s| > 0 && IsSpace(s[0]) then 1 + LeadingSpace(s[1..]) else 0
  }

  /** The number of whitespace characters at the end of `s`. */
  function TrailingSpace(s: string): (n: nat)
    ensures n <= |s|
    ensures forall k :: |s| - n <= k < |s| ==> IsSpace(s[k])
    ensures n == |s| || !IsSpace(s[|s| - n - 1])
  {
    if |s| > 0 && IsSpace(s[|s| - 1]) then 1 + TrailingSpace(s[..|s| - 1]) else 0
  }

  /** Neither end of `s` is whitespace. */
  predicate IsTrimmed(s: string) {
    s == "" || (!IsSpace(s[0]) && !IsSpace(s[|s| - 1]))
  }

  /** `s.trim()`: `s` without its leading and trailing whitespace. */
  function Trim(s: string): (r: string)
    ensures IsTrimmed(r)
    ensures |r| <= |s|
    ensures r == "" <==> AllSpace(s)
    ensures forall c :: c in r ==> c in s
  {
    var t := s[LeadingSpace(s)..];
    var r := t[..|t| - TrailingSpace(t)];
    assert r != "" ==> r[0] == t[0] && r[|r| - 1] == t[|t| - TrailingSpace(t) - 1];
    assert forall c :: c in r ==> c in t;
    r
  }

  /** Trim removes exactly the whitespace padding around a trimmed string. */
  lemma TrimPadding(p: string, s: string, q: string)
    requires AllSpace(p) && AllSpace(q) && IsTrimmed(s)
    ensures Trim(p + s + q) == s
  {
    var x := p + s + q;
    if s == "" {
      assert AllSpace(x);
    } else {
      var a := LeadingSpace(x);
      assert x[|p|] == s[0];
      assert a == |p|;
      var t := x[a..];
      assert t == s + q;
      var b := TrailingSpace(t);
      assert t[|s| - 1] == s[|s| - 1];
      assert b == |q|;
      assert t[..|t| - b] == s;
    }
  }

  /** A trimmed string is its own trim. */
  lemma TrimTrimmed(s: string)
    requires IsTrimmed(s)
    ensures Trim(s) == s
  {
    TrimPadding("", s, "");
    assert "" + s + "" == s;
  }

  /** `parts.join(sep)`. */
  function Join(parts: seq<string>, sep: string): string {
    if |parts| == 0 then ""
    else if |parts| == 1 then parts[0]
    else parts[0] + sep + Join(parts[1..], sep)
  }

  /** `s.split(sep)` for a one-character separator: the maximal separator-free
      pieces, empty ones included, so that joining them back gives `s`. */
  function Split(s: string, sep: char): (parts: seq<string>)
    ensures |parts| >= 1
    ensures forall i :: 0 <= i < |parts| ==> sep !in parts[i]
    ensures Join(parts, [sep]) == s
    decreases |s|
  {
    if |s| == 0 then [""]
    else if s[0] == sep then
      var rest := Split(s[1..], sep);
      assert [""] + rest == [""] + rest[0..];
      assert s == [sep] + s[1..];
      [""] + rest
    else
      var rest := Split(s[1..], sep);
      var parts := [[s[0]] + rest[0]] + rest[1..];
      assert parts[1..] == rest[1..];
      assert s == [s[0]] + s[1..];
      parts
  }

  /** The first piece of a split ends at the first separator. */
  lemma {:induction false} SplitPrefix(a: string, sep: char, b: string)
    requires sep !in a
    ensures Split(a + [sep] + b, sep) == [a] + Split(b, sep)
    decreases |a|
  {
    var s := a + [sep] + b;
    if a == [] {
      assert s == [sep] + b;
      assert s[1..] == b;
    } else {
      assert s[0] == a[0];
      assert s[1..] == a[1..] + [sep] + b;
      SplitPrefix(a[1..], sep, b);
      assert [a[0]] + a[1..] == a;
    }
  }

  /** A separator-free string splits into itself alone. */
  lemma {:induction false} SplitNoSep(a: string, sep: char)
    requires sep !in a
    ensures Split(a, sep) == [a]
    decreases |a|
  {
    if a != [] {
      assert a[0] != sep;
      SplitNoSep(a[1..], sep);
      assert [a[0]] + a[1..] == a;
    }
  }

  /** Split undoes Join when no piece holds the separator. */
  lemma {:induction false} SplitJoin(parts: seq<string>, sep: char)
    requires |parts| >= 1
    requires forall i :: 0 <= i < |parts| ==> sep !in parts[i]
    ensures Split(Join(parts, [sep]), sep) == parts
    decreases |parts|
  {
    if |parts| == 1 {
      SplitNoSep(parts[0], sep);
    } else {
      SplitJoin(parts[1..], sep);
      assert Join(parts, [sep]) == parts[0] + [sep] + Join(parts[1..], [sep]);
      SplitPrefix(parts[0], sep, Join(parts[1..], [sep]));
      assert [parts[0]] + parts[1..] == parts;
    }
  }
}

=== FILE: wrappers.dfy ===
/** Option and Result: the model's stand-ins for JavaScript's `null`/`undefined`
    and for thrown errors. */
module Wrappers {

  datatype Option<+T> = None | Some(value: T) {

    /** Returns the value in Some, or `default` for None. */
    function GetOr(default: T): T {
      match this
      case Some(v) => v
      case None => default
    }
  }

  datatype Result<+R, +E> = Success(value: R) | Failure(error: E)
}
